=== FILE: README.md ===
# Worker lifecycle of a Kafka test harness, modelled in Dafny

The harness starts and stops Kafka producers and consumers on demand through
a small management API, to exercise broker and consumer-group behaviour
(throughput, rebalancing, offset-commit timing, a consumer that never
commits). This project models its worker-lifecycle core as a deterministic,
sequential state machine:

- **Validation** (`validation.dfy`): the checks each request kind runs once
  the web framework has bound its path and query parameters. Name is
  checked before topic, and topic before group id. A duration is required
  for producers and optional for consumers. The failure-simulation flag is a
  case-insensitive `"true"`.
- **ConsumerWorker** (`consumer.dfy`): construction, the two live setters,
  stop, the per-record step of a claim, a whole claim with reconfigurations
  interleaved, and the main loop's exit rule.
- **ProducerWorker** (`producer.dfy`): construction, the guarded stop, one
  iteration of the send loop, and a run of the send loop over many ticks.
- **Registry** (`registry.dfy`): the server state (a producer map and a
  consumer map keyed by `name + "_" + topic`). It also holds the request
  handlers for create, stop and update, the second copy of the update
  handler, and shutdown.
- **RegistryProperties** (`registry_properties.dfy`): properties that relate
  several handler calls. These cover the registry invariant, conflicts and
  not-found across call sequences, the independent namespaces, shutdown, how
  the two update handlers differ, and the end-to-end scenarios.
- **Basics** (`basics.dfy`): `Option`, `Result`, the HTTP error and status
  codes, and `Connect`. `Connect` is the answer the broker-client library
  gives when a worker is built: a version-parse error, a client-creation
  error, or neither.

A handler validates its request before it takes any lock, and validation
touches no shared state. It then holds the mutex of the one map it uses
until it returns: producers and consumers each have their own mutex, and
shutdown takes both. So each handler is one atomic step
`Server -> Outcome(server, response, calls)`. `calls` lists the
calls made on live workers: stop, set interval, set flag. Worker states live
in the maps, so a reconfiguration is visible in the next state. Time is an
integer number of nanoseconds supplied as an input.

These parts of the system become parameters of the model:

- the duration parser (`parse: string -> Option<int>`);
- the broker client's construction (`Connect`);
- the outcome of each synchronous send (a boolean);
- each return of the consumer group's `Consume` call (`ConsumeReturn`);
- the case of the producer loop's `select` that fires (`Selected`).

Two details of the replies:

- The consumer-create reply echoes the raw `shouldFail` query text, so a
  request without the flag reports `shouldFail: ""`, not `false`
  (`RegistryProperties.ConsumerScenario`).
- The update reply carries `name` and `topic` as well as the changed fields.
  It uses status 201.

The repository declares every handler twice in one package: in
`internal/httpserver/kafka.go` and in `internal/httpserver/server.go`. The
model takes the `kafka.go` copy as primary. The `server.go` copy differs
only in its update handler, modelled as `Registry.UpdateConsumerVariant`.

Two further observations, proved but not corrected:

- The key `name_topic` does not separate its parts. `("a_b", "c")` and
  `("a", "b_c")` share a key (`Registry.MakeIdCollides`). The key is
  injective only for names without an underscore.
- The throttle is measured from the last *throttled* record. A record
  processed while the interval is zero does not move the deadline
  (`ConsumerWorker.ThrottleSkipsUnthrottledRecords`).

## Model

| member | source | states |
|---|---|---|
| Validation.CheckNameAndTopic | internal/httpserver/structs.go:17-29 | passes iff name and topic are both non-empty; an empty name fails with 400 "require name in path" before the topic is looked at, then an empty topic fails with 400 "require topic in path" |
| Validation.CheckNameTopicGroupId | internal/httpserver/structs.go:31-41 | passes iff name, topic and group id are non-empty; a name/topic failure is reported unchanged, and the group id (400 "require groupId in query") is checked only after both pass |
| Validation.ParseDuration | internal/httpserver/structs.go:168-177 | empty text fails with 400 "require interval in query params" without asking the parser; other text fails (400 "invalid duration: …") iff the parser rejects it, and otherwise yields the parser's value |
| Validation.ParseOptionalDuration | internal/httpserver/structs.go:102-108 | an empty interval is not an error and leaves the interval at 0; non-empty text is parsed as a required duration |
| Validation.TrueCasings | internal/httpserver/structs.go:109-111 | a text equals "true" up to the case of ASCII letters iff it has four characters, each `t`/`T`, `r`/`R`, `u`/`U`, `e`/`E` in turn |
| Validation.ParseShouldFail | internal/httpserver/structs.go:109-111 | the flag (parsed alike by consumer update at structs.go:157-159) is set iff the text is one of the sixteen casings of "true"; every other text, the empty one included, gives false |
| Validation.BindProducerStartAsWritten | internal/httpserver/structs.go:49-65 | producer start as written: name/topic errors first; then an empty interval fails with 400 "require interval in query params" and text the parser rejects with 400 "invalid duration: <text>"; success iff the parser accepts the interval, zero and negative periods included |
| Validation.BindProducerStart | internal/httpserver/structs.go:56-63 | corrected producer start: every accepted request has a positive interval; it agrees with the as-written validation except that a non-positive period is refused with 400 |
| Validation.BindStop | internal/httpserver/structs.go:71-82 | producer stop (and the identical consumer stop at structs.go:119-130) requires only name and topic and passes iff both are non-empty |
| Validation.BindConsumerStart | internal/httpserver/structs.go:92-113 | consumer start requires name, topic and group id in that order; the interval is optional (0 when empty, 400 iff the parser rejects non-empty text); the flag is the case-insensitive "true" test; the raw texts are kept |
| Validation.BindConsumerUpdate | internal/httpserver/structs.go:140-161 | consumer update requires only name and topic (no group id); interval and flag are parsed as for consumer start |
| ConsumerWorker.NewConsumer | internal/kafka/consumer.go:27-52 | a version error fails first, then a group-creation error; a built consumer has the given config, `proceed = 0`, `lastConsume = now` and an open client |
| ConsumerWorker.Stop | internal/kafka/consumer.go:54-56 | each call closes the client once more (no guard), nothing else changes |
| ConsumerWorker.SetShouldFail | internal/kafka/consumer.go:58-60 | sets the flag to the given value and changes no other field |
| ConsumerWorker.SetConsumeInterval | internal/kafka/consumer.go:62-64 | sets the interval to the given value and changes no other field |
| ConsumerWorker.SettersCommute | internal/kafka/consumer.go:58-64 | the two setters commute, and setting a field to its current value is a no-op |
| ConsumerWorker.Step | internal/kafka/consumer.go:91-105 | one record: `proceed` grows by exactly 1 whatever the flag; a progress observation iff the new count is a multiple of 50; committed iff the flag is off; with a non-zero interval, completion is at the deadline `lastConsume + interval` or at `now` if that is later, never earlier than either, and becomes the new `lastConsume`; with interval 0, no wait and `lastConsume` unchanged |
| ConsumerWorker.ThrottleGap | internal/kafka/consumer.go:91-95 | two records processed back to back under a non-zero interval complete at least that interval apart |
| ConsumerWorker.ThrottleSkipsUnthrottledRecords | internal/kafka/consumer.go:91-95 | a record processed with interval 0 does not move the deadline, so the next throttled record can complete less than the new interval after it |
| ConsumerWorker.ConsumeClaim | internal/kafka/consumer.go:89-108 | over deliveries interleaved with reconfigurations, each taking effect from the next record: the committed records are exactly the deliveries made while the flag in force was off, in delivery order; the count grows by the number of deliveries; progress is reported once at each multiple of 50 passed, in increasing order; the configuration ends with the last interval and flag set and the same name, group id and topic; each completion comes no earlier than its arrival and, when the interval in force at it is non-zero, at least that interval after the last completion that was itself throttled (or after the starting deadline base), which is where the deadline base ends |
| ConsumerWorker.ThrottledClaimGap | internal/kafka/consumer.go:91-95 | in such a schedule, two consecutive completions both processed under a non-zero interval are at least the later one's interval apart |
| ConsumerWorker.MainLoop | internal/kafka/consumer.go:66-77 | the loop exits right after the first `Consume` return that is the closed-client error and never before; any other return (an error or a normal return) re-enters `Consume` |
| ProducerWorker.NewProducer | internal/kafka/producer.go:24-45 | a version error fails first, then a client-creation error, and no loop is started; a built producer has the given config, counter 0, an open stop channel and a running loop |
| ProducerWorker.Stop | internal/kafka/producer.go:47-55 | afterwards the stop channel is closed; the first call closes the client once, and on a closed channel the call changes nothing |
| ProducerWorker.StopIdempotent | internal/kafka/producer.go:47-55 | stop twice equals stop once, so stop closes the client at most once |
| ProducerWorker.NewTicker | internal/kafka/producer.go:59 | the ticker is created iff the period is positive, with that period; otherwise it fails with "non-positive interval for NewTicker" |
| ProducerWorker.TickerPanics | internal/kafka/producer.go:59 | the send loop's ticker panics exactly for a period that is zero or negative |
| ProducerWorker.Payload | internal/kafka/producer.go:69-71 | a payload is the text `Message-` followed by at least one more character |
| ProducerWorker.DecimalReadsBack | internal/kafka/producer.go:69-71 | the decimal text of a counter is a non-empty digit string, reads back as that counter, and has a leading `0` only for 0 |
| ProducerWorker.DecimalInjective | internal/kafka/producer.go:69-71 | different counters have different decimal texts |
| ProducerWorker.PayloadReadsBack | internal/kafka/producer.go:69-71 | what follows `Message-` in a payload is a digit string that reads back as the counter |
| ProducerWorker.PayloadInjective | internal/kafka/producer.go:69-71 | `Message-<n>` payloads of different counters are different |
| ProducerWorker.LoopStep | internal/kafka/producer.go:66-85 | a tick sends `Message-<count>` to the configured topic and advances the counter iff the send succeeded; the close case, possible only once stop has closed the channel, ends the loop with the channel still closed, and its cleanup closes the client |
| ProducerWorker.StopThenCloseEndsLoop | internal/kafka/producer.go:57-86 | after stop the loop's close case ends it; by then the client has been closed twice, by stop and by the loop's cleanup |
| ProducerWorker.SendLoop | internal/kafka/producer.go:65-80 | over a series of ticks, the sent messages are numbered consecutively from the counter with no gap or repeat (a failed send is retried with the same number), all to the configured topic, one per successful send |
| Registry.MakeId | internal/httpserver/kafka.go:163-165 | the key is the name, then one underscore, then the topic |
| Registry.MakeIdCollides | internal/httpserver/kafka.go:163-165 | two different (name, topic) pairs can share a key |
| Registry.MakeIdInjective | internal/httpserver/kafka.go:163-165 | for names without an underscore, the key determines name and topic |
| Registry.NewServer | internal/httpserver/server.go:22-30 | a new server has empty producer and consumer maps, which satisfy the registry invariant |
| Registry.StartProducerWith | internal/httpserver/kafka.go:16-39 | given a validation result: its error is returned as is; 409 if the key is taken and 500 (version error first, then client error) if the producer cannot be built, both leaving the server unchanged; otherwise exactly that key is added with a fresh producer of the validated period, no other entry changes, and the reply is 201 "created" with the key as name and the raw interval text |
| Registry.StartProducer | internal/httpserver/kafka.go:10-40 | corrected (over `Validation.BindProducerStart`): validation errors are returned as is; 409 if the key is taken and 500 if the producer cannot be built, both leaving the server unchanged; otherwise exactly that key is added, with a fresh producer, no other entry changes, the consumers are untouched, and the reply is 201 "created" with the key as name and the raw interval text; the registered period is positive |
| Registry.StartProducerAsWritten | internal/httpserver/kafka.go:10-40 | the handler as written (over `Validation.BindProducerStartAsWritten`): it answers exactly as the corrected one wherever the corrected validation passes; for every request the consumers are untouched, no worker call is made, and a failure leaves the server unchanged; its validation errors are returned as is; 409 if the key is taken, then 500 with the version error, then 500 with the client error; it replies 201 iff the as-written validation passes, the key is free and the producer can be built; on 201 exactly the key is added and every other producer is unchanged; and where only the as-written validation passes, the producer it registers has a period its ticker refuses |
| Registry.StopProducer | internal/httpserver/kafka.go:42-66 | 404 "producer <key> not found" with nothing changed when the key is absent; otherwise one stop call on that producer, only that key removed, 200 "deleted" with the raw name and topic |
| Registry.StartConsumer | internal/httpserver/kafka.go:68-102 | as producer start on the consumer map, with the consumer built from the parsed interval and flag; the reply echoes the parsed interval and the raw flag text |
| Registry.StopConsumer | internal/httpserver/kafka.go:104-128 | as producer stop on the consumer map |
| Registry.UpdateConsumer | internal/httpserver/kafka.go:130-161 | 404 when the key is absent; otherwise the interval changes iff its text is non-empty and the flag changes iff its text is non-empty, independently; nothing else about the consumer or any other entry changes; 201 "updated" whose metadata holds name (the key) and the request's topic plus exactly the changed fields; the calls are one set-interval call iff an interval was given (first) and one set-flag call iff a flag was given, with the parsed values |
| Registry.UpdateMetadata | internal/httpserver/kafka.go:145-156 | update metadata holds exactly name (the key) and topic plus `interval` iff the interval text is non-empty and `shouldFail` iff the flag text is non-empty, with the parsed values |
| Registry.Reconfigure | internal/httpserver/kafka.go:149-156 | the interval is set iff its text is non-empty and the flag is set iff its text is non-empty, independently; nothing else about the consumer changes |
| Registry.UpdateConsumerVariant | internal/httpserver/server.go:180-211 | the second copy answers exactly as the primary one and changes nothing on a failure, but never changes the flag; name, group id, topic, count and deadline of the consumer and every other entry stay as they were; when a flag text is given it sets the interval to the parsed interval; it makes one call per non-empty text, and every call is a set-interval call with the parsed interval |
| Registry.Shutdown | internal/httpserver/server.go:46-58 | stop is called on every registered producer and every registered consumer, and no entry is removed from either map |
| RegistryProperties.StartProducerKeepsValid | internal/httpserver/kafka.go:16-31 | a producer start with the corrected validation keeps the registry invariant: every entry filed under its own worker's name, running, never stopped, with a period the ticker accepts |
| RegistryProperties.StopProducerKeepsValid | internal/httpserver/kafka.go:48-58 | a producer stop keeps the registry invariant |
| RegistryProperties.StartConsumerKeepsValid | internal/httpserver/kafka.go:74-91 | a consumer start keeps the registry invariant |
| RegistryProperties.StopConsumerKeepsValid | internal/httpserver/kafka.go:110-120 | a consumer stop keeps the registry invariant |
| RegistryProperties.UpdateConsumerKeepsValid | internal/httpserver/kafka.go:136-156 | a consumer update keeps the registry invariant |
| RegistryProperties.UpdateConsumerVariantKeepsValid | internal/httpserver/server.go:186-206 | the second copy of the update handler keeps the registry invariant too |
| RegistryProperties.StartProducerTwiceConflicts | internal/httpserver/kafka.go:19-21 | after a successful producer start, the same start returns 409 and changes nothing, so exactly one producer stays under the key |
| RegistryProperties.StartConsumerTwiceConflicts | internal/httpserver/kafka.go:77-79 | after a successful consumer start, the same start returns 409 and changes nothing |
| RegistryProperties.StopProducerTwiceNotFound | internal/httpserver/kafka.go:52-58 | after a successful producer stop, a second stop is a 404 that changes nothing and calls nothing |
| RegistryProperties.StopConsumerTwiceNotFound | internal/httpserver/kafka.go:114-120 | after a successful consumer stop, a second stop is a 404 that changes nothing and calls nothing |
| RegistryProperties.ProducerStartStopStart | internal/httpserver/kafka.go:19-58 | start, stop, start again for one producer key succeeds: stop releases the key |
| RegistryProperties.ConsumerStartStopStart | internal/httpserver/kafka.go:77-120 | start, stop, start again for one consumer key succeeds |
| RegistryProperties.SameKeyInBothRoles | internal/httpserver/server.go:13-14 | producers and consumers are separate namespaces: one key can be registered in both maps at once |
| RegistryProperties.UpdateWithNothingKeepsConfig | internal/httpserver/kafka.go:145-160 | an update with both texts empty keeps the server as it was, calls nothing, and still answers 201 "updated" with only name and topic |
| RegistryProperties.UpdateVariantDiffers | internal/httpserver/server.go:199-210 | the two update copies answer alike and agree when no flag is given; given a flag, both keep every other entry, and the primary sets the flag and keeps the interval unless one was given, while the variant's consumer is the primary's updated one with the flag put back to its old value and the interval set to the parsed one (0 when no interval was given) |
| RegistryProperties.UpdateVariantDropsShouldFail | internal/httpserver/server.go:203-206 | concretely, asking the variant to turn the flag on drops a 5 ns throttle to 0, leaves the flag off, and still reports `shouldFail: true` |
| RegistryProperties.ShutdownStopsEveryWorker | internal/httpserver/server.go:51-56 | on a valid registry, shutdown stops each worker exactly once and keeps every entry, so a non-empty registry no longer satisfies the invariant afterwards |
| RegistryProperties.ProducerScenarioStart | internal/httpserver/kafka.go:10-40 | start `p1/topicA?interval=100ms` on an empty registry answers 201 with name `p1_topicA`, topic and `100ms`, and registers a running producer with a 100ms period, nothing closed |
| RegistryProperties.ProducerScenarioStops | internal/httpserver/kafka.go:42-66 | stopping `p1/topicA` answers 200 and leaves an empty registry; a second stop answers 404 "producer p1_topicA not found" |
| RegistryProperties.ConsumerScenario | internal/httpserver/kafka.go:68-161 | start `c1/topicA?groupId=g1` answers 201 with interval 0 and flag text ""; update `?shouldFail=true` answers 201 "updated" with name, topic and `shouldFail: true`, and the flag is now on |
| RegistryProperties.ZeroIntervalAcceptedAsWritten | internal/httpserver/structs.go:59-63 | as written, a `0s` producer interval passes validation although the send loop's ticker refuses such a period |
| RegistryProperties.ZeroIntervalRegisteredAsWritten | internal/httpserver/kafka.go:10-40 | as written, `POST /v1/producer/p1/topicA?interval=0s` on an empty registry answers 201 and registers `p1_topicA` with a period its ticker refuses, leaving a registry that breaks the invariant |
| RegistryProperties.ZeroIntervalRefused | internal/httpserver/structs.go:59-63 | with the corrected validation the same request is refused with 400 "interval must be positive: 0s", by the validation and by the handler |
| RegistryProperties.StartedProducersTick | internal/kafka/producer.go:59 | for every server, request, parser and client outcome, a producer the corrected handler registers has a period its ticker accepts |

## Findings

| source | as written | input that shows it | evidently intended | confidence | as-written member | corrected member |
|---|---|---|---|---|---|---|
| internal/httpserver/structs.go:59-63 | producer start accepts any duration the parser accepts, including zero and negative ones; the producer is built and its send loop creates a ticker with that period (internal/kafka/producer.go:59), and the standard library's ticker panics on a non-positive period, inside a goroutine, ending the whole process | `POST /v1/producer/p1/topicA?interval=0s` | a non-positive producer interval is refused with 400 before any producer is built | medium (not executed; relies on the documented panic of the ticker for a non-positive period) | RegistryProperties.ZeroIntervalRegisteredAsWritten | Registry.StartProducer |

`Registry.StartProducer` runs the corrected validation `Validation.BindProducerStart`.
The handler as written is `Registry.StartProducerAsWritten`, over
`Validation.BindProducerStartAsWritten`.

## Left out

- Registry.StartProducer: runs the corrected validation, which refuses a
  period that is not positive; the handler as the code is written, which
  accepts it, is `Registry.StartProducerAsWritten`.

- Web framework binding (reading path and query parameters, `ctx.Bind`) and
  JSON encoding of replies: a request is its raw parameter texts, a reply is
  `(status code, status text, metadata map)`.
- `internal/httpserver/event.go`: the open/close event log has no route and
  no logic beyond appending; it is not part of this model.
- `main.go`: flags, environment, signal handling and starting or stopping
  the HTTP listener. `Registry.Shutdown` models only the worker stops, not
  the listener's shutdown that follows them.
- The broker-client library: protocol-version parsing, consumer-group
  sessions, rebalancing, the synchronous producer and message encoding are
  foreign calls. Their outcomes are parameters (`Connect`, send results,
  `ConsumeReturn`). Marking and committing a record is the `committed` flag.
- The duration parser is a parameter, so the model does not fix which texts
  parse.
- Mutexes, goroutines and the unsynchronised read of the consumer's
  configuration by its claim loop: each handler and each loop step is one
  atomic transition, and a reconfiguration takes effect from the next
  record.
- ConsumerWorker.ConsumeClaim: models one claim at a time. The consumer-group
  library runs one claim per assigned partition, each in its own goroutine,
  on the same shared worker (internal/kafka/consumer.go:89-96). Their
  unsynchronised updates of the count and of `lastConsume` race, and records
  of two partitions can complete at the same deadline. So
  `ConsumerWorker.ThrottleGap` and `ConsumerWorker.ThrottledClaimGap` hold
  within one claim only.
- ProducerWorker.LoopStep: does not promise that the loop's next step after
  a stop takes the close case. When a tick is also pending, Go's `select`
  picks either ready case at random, so one more send can happen. The model
  lets the caller pick the case.
- ConsumerWorker.Step: the timer is taken to fire exactly at the deadline.
  Scheduler latency, which only makes the wait longer, is not modelled.
- Integer widths: `time.Duration` and the counters are 64-bit in the code
  and unbounded here. Overflow of `lastConsume + interval` and of the
  counters is not modelled.
- ProducerWorker.Payload models only the `Value` text `Message-<n>` and not
  its JSON wrapping. The `Message` type is declared in a file that is not
  part of this model.
- What the client does when `Close` is called a second time: by the producer
  loop's cleanup after a stop, or by a consumer stop after shutdown. The
  model only counts the calls.
- Log output, including the progress observation's text. The model records
  only whether an observation is emitted.

=== FILE: basics.dfy ===
/** Small shared vocabulary: optional values, results, and the HTTP error the
    handlers return. */
module Basics {

  datatype Option<+T> = None | Some(value: T)

  datatype Result<+T, +E> = Ok(value: T) | Err(error: E)

  /** An HTTP error as the web framework renders it: a status code and a message. */
  datatype HttpError = HttpError(code: int, message: string)

  /** How a broker client was obtained: the answer of the protocol-version
      parser and then of the client constructor. An error from either aborts
      the construction; the parser is asked first. */
  datatype Connect = Connect(versionErr: Option<string>, clientErr: Option<string>)

  const StatusOK: int := 200
  const StatusCreated: int := 201
  const StatusBadRequest: int := 400
  const StatusNotFound: int := 404
  const StatusConflict: int := 409
  const StatusInternalServerError: int := 500
}

=== FILE: consumer.dfy ===
/** A consumer worker: one consumer-group membership that processes delivered
    records one at a time, throttled by a mutable interval, and commits each
    record's offset unless failure simulation is switched on.

    Time is an integer number of nanoseconds supplied by the caller. The
    broker client is not modelled: its construction is the `Connect` answer,
    its `Close` calls are counted, and each return of its `Consume` call is a
    `ConsumeReturn` value. */
module ConsumerWorker {
  import opened Basics

  /** The configuration cell. `interval` and `shouldFail` are changed by the
      management API while the worker runs. */
  datatype Config = Config(name: string, groupId: string, topic: string, interval: int, shouldFail: bool)

  /** `proceed` counts processed records, `lastConsume` is the completion time
      of the most recent throttled record (or the construction time), and
      `closeCalls` counts the calls to the client's `Close`. */
  datatype Consumer = Consumer(cfg: Config, proceed: nat, lastConsume: int, closeCalls: nat)

  /** A delivered record, identified by its position in the log. */
  datatype Record = Record(partition: int, offset: int)

  /** Builds a consumer: a bad protocol version fails first, then a failed
      group join; a built consumer has processed nothing and counts its
      throttle from the construction time `now`. */
  function NewConsumer(cfg: Config, conn: Connect, now: int): (r: Result<Consumer, string>)
    ensures r.Ok? <==> conn.versionErr.None? && conn.clientErr.None?
    ensures conn.versionErr.Some? ==> r == Err(conn.versionErr.value)
    ensures conn.versionErr.None? && conn.clientErr.Some? ==> r == Err(conn.clientErr.value)
    ensures r.Ok? ==> && r.value.cfg == cfg && r.value.proceed == 0
                      && r.value.lastConsume == now && r.value.closeCalls == 0
  {
    if conn.versionErr.Some? then Err(conn.versionErr.value)
    else if conn.clientErr.Some? then Err(conn.clientErr.value)
    else Ok(Consumer(cfg, 0, now, 0))
  }

  /** Stopping closes the client. Every call closes it again: unlike the
      producer's, this stop has no guard. */
  function Stop(c: Consumer): (d: Consumer)
    ensures d.closeCalls == c.closeCalls + 1
    ensures d.cfg == c.cfg && d.proceed == c.proceed && d.lastConsume == c.lastConsume
  {
    c.(closeCalls := c.closeCalls + 1)
  }

  /** Changes the failure-simulation flag and nothing else. */
  function SetShouldFail(c: Consumer, shouldFail: bool): (d: Consumer)
    ensures d.cfg.shouldFail == shouldFail
    ensures d.cfg.interval == c.cfg.interval && d.cfg.name == c.cfg.name
    ensures d.cfg.groupId == c.cfg.groupId && d.cfg.topic == c.cfg.topic
    ensures d.proceed == c.proceed && d.lastConsume == c.lastConsume && d.closeCalls == c.closeCalls
  {
    c.(cfg := c.cfg.(shouldFail := shouldFail))
  }

  /** Changes the throttle interval and nothing else. */
  function SetConsumeInterval(c: Consumer, interval: int): (d: Consumer)
    ensures d.cfg.interval == interval
    ensures d.cfg.shouldFail == c.cfg.shouldFail && d.cfg.name == c.cfg.name
    ensures d.cfg.groupId == c.cfg.groupId && d.cfg.topic == c.cfg.topic
    ensures d.proceed == c.proceed && d.lastConsume == c.lastConsume && d.closeCalls == c.closeCalls
  {
    c.(cfg := c.cfg.(interval := interval))
  }

  /** The two setters touch disjoint fields, so their order does not matter,
      and setting a field to the value it has changes nothing. */
  lemma SettersCommute(c: Consumer, interval: int, shouldFail: bool)
    ensures SetShouldFail(SetConsumeInterval(c, interval), shouldFail)
         == SetConsumeInterval(SetShouldFail(c, shouldFail), interval)
    ensures SetShouldFail(c, c.cfg.shouldFail) == c
    ensures SetConsumeInterval(c, c.cfg.interval) == c
  {
  }

  /** What processing one record did: the new state, the time processing
      completed, whether a progress observation was emitted, and whether the
      record was marked and its offset committed. */
  datatype StepResult = StepResult(consumer: Consumer, doneAt: int, progress: bool, committed: bool)

  /** Processes one record delivered at time `now`: a rolling-deadline wait
      when the interval is non-zero, the processed counter, a progress
      observation every 50 records, and a commit unless failure simulation
      is on. The wait ends at the deadline, or at once when it has passed. */
  function Step(c: Consumer, rec: Record, now: int): (r: StepResult)
    ensures r.consumer.proceed == c.proceed + 1
    ensures r.consumer.cfg == c.cfg && r.consumer.closeCalls == c.closeCalls
    ensures r.progress <==> r.consumer.proceed % 50 == 0
    ensures r.committed <==> !c.cfg.shouldFail
    ensures c.cfg.interval != 0 ==>
              && r.doneAt >= now && r.doneAt >= c.lastConsume + c.cfg.interval
              && (r.doneAt == now || r.doneAt == c.lastConsume + c.cfg.interval)
              && r.consumer.lastConsume == r.doneAt
    ensures c.cfg.interval == 0 ==> r.doneAt == now && r.consumer.lastConsume == c.lastConsume
  {
    var deadline := c.lastConsume + c.cfg.interval;
    var doneAt := if c.cfg.interval != 0 && deadline > now then deadline else now;
    var last := if c.cfg.interval != 0 then doneAt else c.lastConsume;
    var proceed := c.proceed + 1;
    StepResult(c.(proceed := proceed, lastConsume := last), doneAt, proceed % 50 == 0, !c.cfg.shouldFail)
  }

  /** Two records processed back to back under a non-zero interval complete
      at least that interval apart. */
  lemma ThrottleGap(c: Consumer, r1: Record, now1: int, r2: Record, now2: int)
    requires c.cfg.interval != 0
    ensures Step(Step(c, r1, now1).consumer, r2, now2).doneAt - Step(c, r1, now1).doneAt >= c.cfg.interval
  {
  }

  /** The gap is measured from the last THROTTLED record: a record processed
      while the interval was zero does not move the deadline, so the next
      throttled record may follow it sooner than the new interval. */
  lemma ThrottleSkipsUnthrottledRecords()
    ensures var c := Consumer(Config("c_t", "g", "t", 0, false), 0, 0, 0);
            var s1 := Step(c, Record(0, 0), 100);
            var s2 := Step(SetConsumeInterval(s1.consumer, 50), Record(0, 1), 100);
            s2.doneAt - s1.doneAt == 0 < 50
  {
  }

  /** Something that can happen between two records of a claim: a delivery at
      time `now`, or a reconfiguration made through the management API. */
  datatype Event = Delivered(rec: Record, now: int) | IntervalSet(interval: int) | ShouldFailSet(shouldFail: bool)

  /** The failure-simulation flag in force after `events`, starting from
      `flag`: the value of the latest `ShouldFailSet`, else `flag`. */
  function FinalFlag(flag: bool, events: seq<Event>): bool
    decreases |events|
  {
    if |events| == 0 then flag
    else FinalFlag(if events[0].ShouldFailSet? then events[0].shouldFail else flag, events[1..])
  }

  /** The interval in force after `events`, starting from `interval`: the
      value of the latest `IntervalSet`, else `interval`. */
  function FinalInterval(interval: int, events: seq<Event>): int
    decreases |events|
  {
    if |events| == 0 then interval
    else FinalInterval(if events[0].IntervalSet? then events[0].interval else interval, events[1..])
  }

  /** For each delivery among `events`, in order, the interval in force when
      it is processed, starting from `interval`. */
  function IntervalsInForce(interval: int, events: seq<Event>): seq<int>
    decreases |events|
  {
    if |events| == 0 then []
    else
      var e := events[0];
      (if e.Delivered? then [interval] else [])
        + IntervalsInForce(if e.IntervalSet? then e.interval else interval, events[1..])
  }

  /** The arrival time of each delivery among `events`, in order. */
  function Arrivals(events: seq<Event>): seq<int>
    decreases |events|
  {
    if |events| == 0 then []
    else (if events[0].Delivered? then [events[0].now] else []) + Arrivals(events[1..])
  }

  /** The number of deliveries among `events`. */
  function Deliveries(events: seq<Event>): nat
    decreases |events|
  {
    if |events| == 0 then 0
    else (if events[0].Delivered? then 1 else 0) + Deliveries(events[1..])
  }

  /** The deliveries among `events` that arrive while the flag in force,
      starting from `flag`, is unset, in delivery order. */
  function Committable(flag: bool, events: seq<Event>): seq<Record>
    decreases |events|
  {
    if |events| == 0 then []
    else
      var e := events[0];
      (if e.Delivered? && !flag then [e.rec] else [])
        + Committable(if e.ShouldFailSet? then e.shouldFail else flag, events[1..])
  }

  /** Peels the event at index `i` off the suffix that starts there. */
  lemma Unroll(flag: bool, interval: int, events: seq<Event>, i: nat)
    requires i < |events|
    ensures var e := events[i];
            var next := if e.ShouldFailSet? then e.shouldFail else flag;
            var nextInterval := if e.IntervalSet? then e.interval else interval;
            && Committable(flag, events[i..])
                 == (if e.Delivered? && !flag then [e.rec] else []) + Committable(next, events[i + 1..])
            && Deliveries(events[i..]) == (if e.Delivered? then 1 else 0) + Deliveries(events[i + 1..])
            && FinalFlag(flag, events[i..]) == FinalFlag(next, events[i + 1..])
            && FinalInterval(interval, events[i..]) == FinalInterval(nextInterval, events[i + 1..])
            && IntervalsInForce(interval, events[i..])
                 == (if e.Delivered? then [interval] else []) + IntervalsInForce(nextInterval, events[i + 1..])
            && Arrivals(events[i..]) == (if e.Delivered? then [e.now] else []) + Arrivals(events[i + 1..])
  {
    assert events[i..][1..] == events[i + 1..];
  }

  /** Moving the event at index `i` from the unprocessed suffix to the
      committed prefix keeps the prefix and the suffix's commits together
      equal to the whole claim's. */
  lemma PeelCommits(commits: seq<Record>, flag: bool, events: seq<Event>, i: nat, whole: seq<Record>)
    requires i < |events| && commits + Committable(flag, events[i..]) == whole
    ensures var e := events[i];
            (commits + (if e.Delivered? && !flag then [e.rec] else []))
              + Committable(if e.ShouldFailSet? then e.shouldFail else flag, events[i + 1..]) == whole
  {
    Unroll(flag, 0, events, i);
  }

  /** The same for the intervals in force at the deliveries. */
  lemma PeelIntervals(intervals: seq<int>, interval: int, events: seq<Event>, i: nat, whole: seq<int>)
    requires i < |events| && intervals + IntervalsInForce(interval, events[i..]) == whole
    ensures var e := events[i];
            (intervals + (if e.Delivered? then [interval] else []))
              + IntervalsInForce(if e.IntervalSet? then e.interval else interval, events[i + 1..]) == whole
  {
    Unroll(false, interval, events, i);
  }

  /** The same for the arrival times of the deliveries. */
  lemma PeelArrivals(arrivals: seq<int>, events: seq<Event>, i: nat, whole: seq<int>)
    requires i < |events| && arrivals + Arrivals(events[i..]) == whole
    ensures var e := events[i];
            (arrivals + (if e.Delivered? then [e.now] else [])) + Arrivals(events[i + 1..]) == whole
  {
    Unroll(false, 0, events, i);
  }

  /** The state of a claim in progress: the worker, the records committed,
      the progress marks emitted and the completion time of each delivery. */
  datatype Claim = Claim(consumer: Consumer, commits: seq<Record>, marks: seq<nat>, done: seq<int>)

  /** Handles one event of a claim: a delivery is processed by `Step`, a
      reconfiguration goes through the matching setter. */
  function Advance(st: Claim, e: Event): Claim {
    match e
    case Delivered(rec, now) =>
      var r := Step(st.consumer, rec, now);
      Claim(r.consumer,
            st.commits + (if r.committed then [rec] else []),
            st.marks + (if r.progress then [r.consumer.proceed] else []),
            st.done + [r.doneAt])
    case IntervalSet(interval) => st.(consumer := SetConsumeInterval(st.consumer, interval))
    case ShouldFailSet(flag) => st.(consumer := SetShouldFail(st.consumer, flag))
  }

  /** After the first `i` events of a claim that started from `c`: the
      commits so far followed by those the rest will make are the claim's. */
  ghost predicate CommitsSoFar(c: Consumer, events: seq<Event>, i: nat, st: Claim) {
    i <= |events| && st.commits + Committable(st.consumer.cfg.shouldFail, events[i..]) == Committable(c.cfg.shouldFail, events)
  }

  /** After the first `i` events: the count, the configuration and the
      close calls agree with what the rest of the events will bring. */
  ghost predicate CountsSoFar(c: Consumer, events: seq<Event>, i: nat, st: Claim) {
    var d := st.consumer;
    && i <= |events|
    && c.proceed <= d.proceed
    && d.proceed - c.proceed + Deliveries(events[i..]) == Deliveries(events)
    && FinalFlag(d.cfg.shouldFail, events[i..]) == FinalFlag(c.cfg.shouldFail, events)
    && FinalInterval(d.cfg.interval, events[i..]) == FinalInterval(c.cfg.interval, events)
    && d.cfg.name == c.cfg.name && d.cfg.groupId == c.cfg.groupId && d.cfg.topic == c.cfg.topic
    && d.closeCalls == c.closeCalls
  }

  /** After the first `i` events: `intervals` and `arrivals` are those of the
      deliveries so far, and their completions are scheduled. */
  ghost predicate ScheduleSoFar(c: Consumer, events: seq<Event>, i: nat, st: Claim, intervals: seq<int>, arrivals: seq<int>) {
    && i <= |events|
    && intervals + IntervalsInForce(st.consumer.cfg.interval, events[i..]) == IntervalsInForce(c.cfg.interval, events)
    && arrivals + Arrivals(events[i..]) == Arrivals(events)
    && Scheduled(c.lastConsume, intervals, arrivals, st.done, st.consumer.lastConsume)
  }

  lemma KeepsCommits(c: Consumer, events: seq<Event>, i: nat, st: Claim)
    requires i < |events| && CommitsSoFar(c, events, i, st)
    ensures CommitsSoFar(c, events, i + 1, Advance(st, events[i]))
  {
    PeelCommits(st.commits, st.consumer.cfg.shouldFail, events, i, Committable(c.cfg.shouldFail, events));
    if !events[i].Delivered? {
      assert st.commits + [] == st.commits;
    }
  }

  lemma KeepsCounts(c: Consumer, events: seq<Event>, i: nat, st: Claim)
    requires i < |events| && CountsSoFar(c, events, i, st)
    ensures CountsSoFar(c, events, i + 1, Advance(st, events[i]))
  {
    Unroll(st.consumer.cfg.shouldFail, st.consumer.cfg.interval, events, i);
  }

  lemma KeepsMarks(c: Consumer, e: Event, st: Claim)
    requires c.proceed <= st.consumer.proceed && MarksBetween(st.marks, c.proceed, st.consumer.proceed)
    ensures MarksBetween(Advance(st, e).marks, c.proceed, Advance(st, e).consumer.proceed)
  {
    if e.Delivered? {
      var r := Step(st.consumer, e.rec, e.now);
      assert r.consumer.proceed == st.consumer.proceed + 1;
      assert Advance(st, e).marks == (if r.progress then st.marks + [r.consumer.proceed] else st.marks);
      MarkStep(st.marks, c.proceed, st.consumer.proceed);
    }
  }

  lemma KeepsSchedule(c: Consumer, events: seq<Event>, i: nat, st: Claim, intervals: seq<int>, arrivals: seq<int>)
    requires i < |events| && ScheduleSoFar(c, events, i, st, intervals, arrivals)
    ensures var e := events[i];
            ScheduleSoFar(c, events, i + 1, Advance(st, e),
                          intervals + (if e.Delivered? then [st.consumer.cfg.interval] else []),
                          arrivals + (if e.Delivered? then [e.now] else []))
  {
    var e := events[i];
    PeelIntervals(intervals, st.consumer.cfg.interval, events, i, IntervalsInForce(c.cfg.interval, events));
    PeelArrivals(arrivals, events, i, Arrivals(events));
    if e.Delivered? {
      var r := Step(st.consumer, e.rec, e.now);
      ScheduleStep(c.lastConsume, intervals, arrivals, st.done, st.consumer.lastConsume,
                   st.consumer.cfg.interval, e.now, r.doneAt);
    } else {
      assert intervals + [] == intervals && arrivals + [] == arrivals;
    }
  }

  /** Runs one claim over a stream of deliveries interleaved with
      reconfigurations, each taking effect from the next record. The
      committed records are exactly the deliveries that arrive while failure
      simulation is off, in delivery order; the counter advances once per
      delivery whatever the flag; a progress observation is emitted once at
      each multiple of 50 that the counter passes, in increasing order; only
      the interval and the flag of the configuration change, to the last
      values set. `done` holds the completion time of each delivery: never
      before its arrival and, under a non-zero interval, at least that
      interval after the last completion that was itself throttled. */
  method ConsumeClaim(c: Consumer, events: seq<Event>)
    returns (d: Consumer, commits: seq<Record>, marks: seq<nat>, done: seq<int>)
    ensures commits == Committable(c.cfg.shouldFail, events)
    ensures d.proceed == c.proceed + Deliveries(events)
    ensures d.cfg == c.cfg.(interval := FinalInterval(c.cfg.interval, events),
                            shouldFail := FinalFlag(c.cfg.shouldFail, events))
    ensures MarksBetween(marks, c.proceed, d.proceed)
    ensures d.closeCalls == c.closeCalls
    ensures Scheduled(c.lastConsume, IntervalsInForce(c.cfg.interval, events), Arrivals(events), done, d.lastConsume)
  {
    var st := Claim(c, [], [], []);
    ghost var intervals: seq<int> := [];
    ghost var arrivals: seq<int> := [];
    var i := 0;
    while i < |events|
      invariant CommitsSoFar(c, events, i, st)
      invariant CountsSoFar(c, events, i, st)
      invariant MarksBetween(st.marks, c.proceed, st.consumer.proceed)
      invariant ScheduleSoFar(c, events, i, st, intervals, arrivals)
    {
      var e := events[i];
      KeepsCommits(c, events, i, st);
      KeepsCounts(c, events, i, st);
      KeepsMarks(c, e, st);
      KeepsSchedule(c, events, i, st, intervals, arrivals);
      intervals := intervals + (if e.Delivered? then [st.consumer.cfg.interval] else []);
      arrivals := arrivals + (if e.Delivered? then [e.now] else []);
      st := Advance(st, e);
      i := i + 1;
    }
    assert events[i..] == [];
    assert intervals + [] == intervals && arrivals + [] == arrivals;
    d, commits, marks, done := st.consumer, st.commits, st.marks, st.done;
  }

  /** The deadline base after the completions `done` processed under
      `intervals`: the last completion under a non-zero interval, or `start`
      when there was none. */
  function LastThrottled(start: int, intervals: seq<int>, done: seq<int>): int
    requires |intervals| == |done|
    decreases |done|
  {
    if |done| == 0 then start
    else if intervals[|done| - 1] != 0 then done[|done| - 1]
    else LastThrottled(start, intervals[..|done| - 1], done[..|done| - 1])
  }

  /** The completions `done` of deliveries that arrived at `arrivals` under
      `intervals`: none before its arrival, each throttled one gapped from the
      deadline base before it, and `last` the deadline base after them all. */
  predicate Scheduled(start: int, intervals: seq<int>, arrivals: seq<int>, done: seq<int>, last: int) {
    && |done| == |intervals| == |arrivals|
    && (forall j :: 0 <= j < |done| ==> done[j] >= arrivals[j])
    && Gapped(start, intervals, done)
    && LastThrottled(start, intervals, done) == last
  }

  /** The progress marks emitted while the counter went from `lo` to `hi`:
      exactly the multiples of 50 in between, in increasing order. */
  ghost predicate MarksBetween(marks: seq<nat>, lo: nat, hi: nat) {
    && (forall k :: k in marks <==> lo < k <= hi && k % 50 == 0)
    && (forall a, b :: 0 <= a < b < |marks| ==> marks[a] < marks[b])
    && (forall a :: 0 <= a < |marks| ==> marks[a] <= hi)
  }

  /** Counting one more record keeps the marks exact and ordered. */
  lemma MarkStep(marks: seq<nat>, lo: nat, hi: nat)
    requires lo <= hi && MarksBetween(marks, lo, hi)
    ensures MarksBetween(if (hi + 1) % 50 == 0 then marks + [hi + 1] else marks, lo, hi + 1)
  {
    var next := if (hi + 1) % 50 == 0 then marks + [hi + 1] else marks;
    forall k
      ensures k in next <==> lo < k <= hi + 1 && k % 50 == 0
    {
      assert k in next <==> k in marks || ((hi + 1) % 50 == 0 && k == hi + 1);
    }
  }

  /** Processing one delivery at or after its arrival, and at or after the
      deadline when throttled, keeps the schedule. */
  lemma ScheduleStep(start: int, intervals: seq<int>, arrivals: seq<int>, done: seq<int>, last: int,
                     interval: int, now: int, at: int)
    requires Scheduled(start, intervals, arrivals, done, last)
    requires at >= now && (interval != 0 ==> at >= last + interval)
    ensures Scheduled(start, intervals + [interval], arrivals + [now], done + [at], if interval != 0 then at else last)
  {
    ExtendSchedule(start, intervals, done, interval, at);
  }

  /** Every completion under a non-zero interval comes at least that interval
      after the deadline base before it. */
  predicate Gapped(start: int, intervals: seq<int>, done: seq<int>)
    requires |intervals| == |done|
  {
    forall j :: 0 <= j < |done| && intervals[j] != 0 ==>
      done[j] >= LastThrottled(start, intervals[..j], done[..j]) + intervals[j]
  }

  /** One more completion, at or after the deadline, keeps the schedule gapped. */
  lemma ExtendSchedule(start: int, intervals: seq<int>, done: seq<int>, interval: int, at: int)
    requires |intervals| == |done| && Gapped(start, intervals, done)
    requires interval != 0 ==> at >= LastThrottled(start, intervals, done) + interval
    ensures Gapped(start, intervals + [interval], done + [at])
    ensures LastThrottled(start, intervals + [interval], done + [at])
              == (if interval != 0 then at else LastThrottled(start, intervals, done))
  {
    var iv, dn := intervals + [interval], done + [at];
    assert iv[..|done|] == intervals && dn[..|done|] == done;
    forall j | 0 <= j < |dn| && iv[j] != 0
      ensures dn[j] >= LastThrottled(start, iv[..j], dn[..j]) + iv[j]
    {
      if j < |done| {
        assert iv[..j] == intervals[..j] && dn[..j] == done[..j];
      }
    }
  }

  /** Under a non-zero interval held throughout, consecutive completions of
      a claim are at least that interval apart. */
  lemma ThrottledClaimGap(start: int, intervals: seq<int>, done: seq<int>, j: nat)
    requires |intervals| == |done| && Gapped(start, intervals, done)
    requires 0 < j < |done| && intervals[j - 1] != 0 && intervals[j] != 0
    ensures done[j] - done[j - 1] >= intervals[j]
  {
    assert intervals[..j][..j - 1] == intervals[..j - 1];
  }

  /** What one return of the consumer-group `Consume` call reports. */
  datatype ConsumeReturn = Returned | ClosedClient | OtherError(message: string)

  /** The main loop re-enters `Consume` until it reports the closed-client
      error. Given the successive returns, the answer is `Some(k)` when the
      loop exits right after the k-th call, and `None` when it is still
      running after all of them. */
  function MainLoop(results: seq<ConsumeReturn>): (r: Option<nat>)
    ensures r.Some? ==> 1 <= r.value <= |results| && results[r.value - 1] == ClosedClient
    ensures r.Some? ==> forall i :: 0 <= i < r.value - 1 ==> results[i] != ClosedClient
    ensures r.None? <==> forall i :: 0 <= i < |results| ==> results[i] != ClosedClient
  {
    if |results| == 0 then None
    else if results[0] == ClosedClient then Some(1)
    else match MainLoop(results[1..])
      case None => None
      case Some(k) => Some(k + 1)
  }
}

=== FILE: producer.dfy ===
/** A producer worker: one send loop that publishes a numbered synthetic
    message to a fixed topic on every tick of a fixed-period ticker until it
    is stopped.

    The broker client is not modelled: its construction is the `Connect`
    answer, the outcome of each synchronous send is a boolean supplied by the
    caller, and its `Close` calls are counted. */
module ProducerWorker {
  import opened Basics

  datatype Config = Config(name: string, topic: string, interval: int)

  /** `closed` says whether the stop channel has been closed, `clientCloses`
      counts the calls to the client's `Close`, `count` is the send loop's
      message counter and `running` says whether the send loop is alive. */
  datatype Producer = Producer(cfg: Config, closed: bool, clientCloses: nat, count: nat, running: bool)

  /** Builds a producer and starts its send loop: a bad protocol version
      fails first, then a failed client; on failure no loop is started. */
  function NewProducer(cfg: Config, conn: Connect): (r: Result<Producer, string>)
    ensures r.Ok? <==> conn.versionErr.None? && conn.clientErr.None?
    ensures conn.versionErr.Some? ==> r == Err(conn.versionErr.value)
    ensures conn.versionErr.None? && conn.clientErr.Some? ==> r == Err(conn.clientErr.value)
    ensures r.Ok? ==> && r.value.cfg == cfg && r.value.count == 0 && r.value.running
                      && !r.value.closed && r.value.clientCloses == 0
  {
    if conn.versionErr.Some? then Err(conn.versionErr.value)
    else if conn.clientErr.Some? then Err(conn.clientErr.value)
    else Ok(Producer(cfg, false, 0, 0, true))
  }

  /** The standard library's ticker, created first thing by the send loop:
      a period that is not positive makes it panic with this message, and
      the panic, raised in the loop's goroutine, ends the whole process. */
  function NewTicker(period: int): (t: Result<nat, string>)
    ensures t.Ok? <==> period > 0
    ensures t.Ok? ==> t.value == period
    ensures t.Err? ==> t.error == "non-positive interval for NewTicker"
  {
    if period <= 0 then Err("non-positive interval for NewTicker") else Ok(period)
  }

  /** Whether a producer with this period brings the process down as soon as
      its send loop starts. */
  predicate TickerPanics(interval: int)
    ensures TickerPanics(interval) <==> interval <= 0
  {
    NewTicker(interval).Err?
  }

  /** Stop closes the stop channel and the client the first time; once the
      channel is closed, a later call returns without closing anything. */
  function Stop(p: Producer): (q: Producer)
    ensures q.closed
    ensures p.closed ==> q == p
    ensures !p.closed ==> q.clientCloses == p.clientCloses + 1
    ensures q.cfg == p.cfg && q.count == p.count && q.running == p.running
  {
    if p.closed then p else p.(closed := true, clientCloses := p.clientCloses + 1)
  }

  /** Stop is idempotent: a second call changes nothing, so the client is
      closed by Stop at most once however often it is called. */
  lemma StopIdempotent(p: Producer)
    ensures Stop(Stop(p)) == Stop(p)
    ensures Stop(Stop(p)).clientCloses <= p.clientCloses + 1
  {
  }

  predicate IsDigits(s: string) {
    forall i :: 0 <= i < |s| ==> '0' <= s[i] <= '9'
  }

  /** The number a text of decimal digits denotes, most significant first. */
  function ValueOf(s: string): nat
    requires IsDigits(s)
    decreases |s|
  {
    if |s| == 0 then 0 else 10 * ValueOf(s[..|s| - 1]) + (s[|s| - 1] as int - '0' as int)
  }

  function Digit(d: nat): char
    requires d < 10
  {
    ('0' as int + d) as char
  }

  /** The decimal text of a natural number, most significant digit first. */
  function Decimal(n: nat): string
    decreases n
  {
    if n < 10 then [Digit(n)] else Decimal(n / 10) + [Digit(n % 10)]
  }

  /** The decimal text is what `%d` prints: digits only, no leading zero, and
      it reads back as the number. */
  lemma {:induction false} DecimalReadsBack(n: nat)
    ensures |Decimal(n)| >= 1 && IsDigits(Decimal(n)) && ValueOf(Decimal(n)) == n
    ensures Decimal(n)[0] == '0' ==> n == 0
    decreases n
  {
    if n >= 10 {
      DecimalReadsBack(n / 10);
      var init := Decimal(n / 10);
      var s := init + [Digit(n % 10)];
      assert s[..|s| - 1] == init;
    }
  }

  /** Different numbers have different decimal texts. */
  lemma DecimalInjective(a: nat, b: nat)
    requires Decimal(a) == Decimal(b)
    ensures a == b
  {
    DecimalReadsBack(a);
    DecimalReadsBack(b);
  }

  /** The text of the n-th message: "Message-" and then the number. */
  function Payload(n: nat): (p: string)
    ensures |p| > 8 && p[..8] == "Message-"
  {
    "Message-" + Decimal(n)
  }

  /** What follows the "Message-" prefix of the n-th payload is a decimal
      text that reads back as n. */
  lemma PayloadReadsBack(n: nat)
    ensures IsDigits(Payload(n)[8..]) && ValueOf(Payload(n)[8..]) == n
  {
    assert Payload(n)[8..] == Decimal(n);
    DecimalReadsBack(n);
  }

  /** Distinct counter values give distinct payloads. */
  lemma PayloadInjective(a: nat, b: nat)
    ensures Payload(a) == Payload(b) <==> a == b
  {
    if Payload(a) == Payload(b) {
      assert Decimal(a) == Payload(a)[8..] == Payload(b)[8..] == Decimal(b);
      DecimalInjective(a, b);
    }
  }

  /** A message handed to the client: its topic and its payload text. */
  datatype Message = Message(topic: string, value: string)

  /** Which ready case of the send loop's wait was taken: a tick (with the
      outcome of the send it triggers) or the closed stop channel. */
  datatype Selected = TickFired(sendOk: bool) | CloseFired

  /** One step of the send loop: the message it tried to send, if any, and
      whether the send succeeded. */
  datatype LoopResult = LoopResult(producer: Producer, attempted: Option<Message>, sent: bool)

  /** One iteration of the send loop. A tick tries to send message number
      `count` to the configured topic and advances the counter only when the
      send succeeds. The close case, which can be taken only once the stop
      channel is closed, ends the loop, whose cleanup closes the client. */
  function LoopStep(p: Producer, sel: Selected): (r: LoopResult)
    requires p.running
    requires sel.CloseFired? ==> p.closed
    ensures sel.TickFired? ==> && r.attempted == Some(Message(p.cfg.topic, Payload(p.count)))
                               && r.sent == sel.sendOk
                               && r.producer.count == (if sel.sendOk then p.count + 1 else p.count)
                               && r.producer.running && r.producer.closed == p.closed
                               && r.producer.clientCloses == p.clientCloses
    ensures sel.CloseFired? ==> && r.attempted.None? && !r.sent && !r.producer.running && r.producer.closed
                                && r.producer.count == p.count
                                && r.producer.clientCloses == p.clientCloses + 1
    ensures r.producer.cfg == p.cfg
  {
    match sel
    case TickFired(ok) =>
      var m := Message(p.cfg.topic, Payload(p.count));
      LoopResult(if ok then p.(count := p.count + 1) else p, Some(m), ok)
    case CloseFired =>
      LoopResult(p.(running := false, clientCloses := p.clientCloses + 1), None, false)
  }

  /** After Stop the close case is ready, and taking it ends the loop; by
      then the client has been closed twice, once by Stop and once by the
      loop's cleanup. */
  lemma StopThenCloseEndsLoop(p: Producer)
    requires p.running && !p.closed
    ensures var r := LoopStep(Stop(p), CloseFired);
            !r.producer.running && r.producer.clientCloses == p.clientCloses + 2
  {
  }

  /** The number of successful sends among `acks`. */
  function Successes(acks: seq<bool>): nat {
    if |acks| == 0 then 0 else Successes(acks[..|acks| - 1]) + (if acks[|acks| - 1] then 1 else 0)
  }

  /** Runs the send loop over a series of ticks whose sends succeed or fail
      as `acks` says. The messages actually sent carry consecutive numbers
      starting at the counter's value, without gaps or repeats (a failed send
      is retried with the same number on the next tick), all to the
      configured topic. */
  method SendLoop(p: Producer, acks: seq<bool>) returns (q: Producer, sent: seq<Message>)
    requires p.running
    ensures |sent| == Successes(acks)
    ensures q.count == p.count + |sent|
    ensures forall i :: 0 <= i < |sent| ==> sent[i] == Message(p.cfg.topic, Payload(p.count + i))
    ensures q.running && q.closed == p.closed && q.clientCloses == p.clientCloses && q.cfg == p.cfg
  {
    q := p;
    sent := [];
    var i := 0;
    while i < |acks|
      invariant 0 <= i <= |acks|
      invariant |sent| == Successes(acks[..i])
      invariant q.count == p.count + |sent|
      invariant forall j :: 0 <= j < |sent| ==> sent[j] == Message(p.cfg.topic, Payload(p.count + j))
      invariant q.running && q.closed == p.closed && q.clientCloses == p.clientCloses && q.cfg == p.cfg
    {
      var r := LoopStep(q, TickFired(acks[i]));
      if r.sent {
        sent := sent + [r.attempted.value];
      }
      q := r.producer;
      assert acks[..i + 1][..i] == acks[..i];
      i := i + 1;
    }
    assert acks[..|acks|] == acks;
  }
}

=== FILE: registry.dfy ===
/** The worker registry behind the management API: two maps, one for
    producers and one for consumers, keyed by the identity `name_topic`, and
    the request handlers that create, stop and reconfigure their workers.

    A handler validates its request before taking a lock and touches no
    shared state while doing so; it then holds the lock of the one map it
    uses (producers and consumers have one mutex each, and shutdown takes
    both) until it returns. So each handler is modelled as one atomic step
    from a server state to an `Outcome`: the new state, the response, and the
    calls made on live workers. */
module Registry {
  import opened Basics
  import opened Validation
  import P = ProducerWorker
  import C = ConsumerWorker

  datatype Server = Server(producers: map<string, P.Producer>, consumers: map<string, C.Consumer>)

  /** A metadata value of a response: raw text, a parsed duration, or a flag. */
  datatype Value = Text(text: string) | Nanos(nanos: int) | Flag(flag: bool)

  /** A JSON reply `{status, metadata}` with its status code, or an HTTP error. */
  datatype Response = Reply(code: int, status: string, metadata: map<string, Value>) | Failure(error: HttpError)

  /** A call a handler makes on a live worker. */
  datatype Call =
    | ProducerStop(id: string)
    | ConsumerStop(id: string)
    | ConsumerSetInterval(id: string, interval: int)
    | ConsumerSetShouldFail(id: string, shouldFail: bool)

  datatype Outcome = Outcome(server: Server, response: Response, calls: seq<Call>)

  /** The registry key of a worker: the name, an underscore, the topic. */
  function MakeId(name: string, topic: string): (id: string)
    ensures |id| == |name| + 1 + |topic|
    ensures id[..|name|] == name && id[|name|] == '_' && id[|name| + 1..] == topic
  {
    name + "_" + topic
  }

  /** The key does not tell its parts apart when the name holds an underscore:
      two different workers can share one key, and then the second start is a
      conflict. */
  lemma MakeIdCollides()
    ensures MakeId("a_b", "c") == MakeId("a", "b_c")
  {
  }

  /** When names hold no underscore, the key determines name and topic. */
  lemma MakeIdInjective(n1: string, t1: string, n2: string, t2: string)
    requires '_' !in n1 && '_' !in n2
    requires MakeId(n1, t1) == MakeId(n2, t2)
    ensures n1 == n2 && t1 == t2
  {
  }

  /** The registry invariant the handlers keep: every entry is filed under its
      own worker's name, no registered producer has been stopped and each has
      a period the ticker accepts, and no registered consumer has been
      stopped. */
  ghost predicate Valid(s: Server) {
    && (forall id :: id in s.producers ==>
          && s.producers[id].cfg.name == id && !s.producers[id].closed
          && s.producers[id].running && s.producers[id].clientCloses == 0
          && !P.TickerPanics(s.producers[id].cfg.interval))
    && (forall id :: id in s.consumers ==>
          s.consumers[id].cfg.name == id && s.consumers[id].closeCalls == 0)
  }

  /** A new server has no workers. */
  function NewServer(): (s: Server)
    ensures |s.producers| == 0 && |s.consumers| == 0
    ensures Valid(s)
  {
    Server(map[], map[])
  }

  /** Producer start once its request has been validated, or has failed
      validation with `b`'s error: 409 if the key is taken; then 500 if the
      producer cannot be built; otherwise the producer is registered under
      exactly that key, with the validated period, and the reply is 201
      "created" with the key (not the raw name) as metadata name. */
  function StartProducerWith(s: Server, b: Result<ProducerStart, HttpError>, conn: Connect): (o: Outcome)
    ensures o.server.consumers == s.consumers && o.calls == []
    ensures o.response.Failure? <==> o.server == s
    ensures b.Err? ==> o.response == Failure(b.error)
    ensures b.Ok? && MakeId(b.value.name, b.value.topic) in s.producers ==>
              o.response == Failure(HttpError(StatusConflict, "already exist producer"))
    ensures b.Ok? && MakeId(b.value.name, b.value.topic) !in s.producers && conn.versionErr.Some? ==>
              o.response == Failure(HttpError(StatusInternalServerError, conn.versionErr.value))
    ensures b.Ok? && MakeId(b.value.name, b.value.topic) !in s.producers
            && conn.versionErr.None? && conn.clientErr.Some? ==>
              o.response == Failure(HttpError(StatusInternalServerError, conn.clientErr.value))
    ensures o.response.Reply? <==>
              b.Ok? && MakeId(b.value.name, b.value.topic) !in s.producers && conn.versionErr.None? && conn.clientErr.None?
    ensures o.response.Reply? ==>
              var id := MakeId(b.value.name, b.value.topic);
              && o.server.producers.Keys == s.producers.Keys + {id}
              && (forall k :: k in s.producers ==> o.server.producers[k] == s.producers[k])
              && o.server.producers[id] == P.Producer(P.Config(id, b.value.topic, b.value.interval), false, 0, 0, true)
              && o.response == Reply(StatusCreated, "created",
                                     map["name" := Text(id), "topic" := Text(b.value.topic),
                                         "interval" := Text(b.value.intervalText)])
  {
    match b
    case Err(e) => Outcome(s, Failure(e), [])
    case Ok(q) =>
      var id := MakeId(q.name, q.topic);
      if id in s.producers then Outcome(s, Failure(HttpError(StatusConflict, "already exist producer")), [])
      else
        match P.NewProducer(P.Config(id, q.topic, q.interval), conn)
        case Err(msg) => Outcome(s, Failure(HttpError(StatusInternalServerError, msg)), [])
        case Ok(w) =>
          Outcome(s.(producers := s.producers[id := w]),
                  Reply(StatusCreated, "created",
                        map["name" := Text(id), "topic" := Text(q.topic), "interval" := Text(q.intervalText)]),
                  [])
  }

  /** POST /v1/producer/{name}/{topic}, with the corrected validation that
      refuses a period that is not positive: validation errors first; then
      409 if the key is taken; then 500 if the producer cannot be built;
      otherwise the producer is registered under exactly that key and the
      reply is 201 "created" with the key as metadata name. */
  function StartProducer(s: Server, r: RawRequest, parse: DurationParser, conn: Connect): (o: Outcome)
    ensures o.server.consumers == s.consumers && o.calls == []
    ensures o.response.Failure? <==> o.server == s
    ensures BindProducerStart(r, parse).Err? ==> o.response == Failure(BindProducerStart(r, parse).error)
    ensures BindProducerStart(r, parse).Ok? && MakeId(r.name, r.topic) in s.producers ==>
              o.response == Failure(HttpError(StatusConflict, "already exist producer"))
    ensures BindProducerStart(r, parse).Ok? && MakeId(r.name, r.topic) !in s.producers && conn.versionErr.Some? ==>
              o.response == Failure(HttpError(StatusInternalServerError, conn.versionErr.value))
    ensures BindProducerStart(r, parse).Ok? && MakeId(r.name, r.topic) !in s.producers
            && conn.versionErr.None? && conn.clientErr.Some? ==>
              o.response == Failure(HttpError(StatusInternalServerError, conn.clientErr.value))
    ensures o.response.Reply? <==>
              && BindProducerStart(r, parse).Ok? && MakeId(r.name, r.topic) !in s.producers
              && conn.versionErr.None? && conn.clientErr.None?
    ensures o.response.Reply? ==>
              var id := MakeId(r.name, r.topic);
              && o.server.producers.Keys == s.producers.Keys + {id}
              && (forall k :: k in s.producers ==> o.server.producers[k] == s.producers[k])
              && o.server.producers[id] == P.Producer(P.Config(id, r.topic, parse(r.interval).value), false, 0, 0, true)
              && o.server.producers[id].cfg.interval > 0
              && o.response == Reply(StatusCreated, "created",
                                     map["name" := Text(id), "topic" := Text(r.topic), "interval" := Text(r.interval)])
  {
    StartProducerWith(s, BindProducerStart(r, parse), conn)
  }

  /** POST /v1/producer/{name}/{topic} as the code is written: the same
      handler over the validation that accepts any period the parser
      accepts. It answers exactly as the corrected handler wherever the
      corrected validation passes, and where only it passes, it registers a
      producer whose ticker refuses its period. */
  function StartProducerAsWritten(s: Server, r: RawRequest, parse: DurationParser, conn: Connect): (o: Outcome)
    ensures BindProducerStart(r, parse).Ok? ==> o == StartProducer(s, r, parse, conn)
    ensures o.server.consumers == s.consumers && o.calls == []
    ensures o.response.Failure? <==> o.server == s
    ensures BindProducerStartAsWritten(r, parse).Err? ==> o == Outcome(s, Failure(BindProducerStartAsWritten(r, parse).error), [])
    ensures BindProducerStartAsWritten(r, parse).Ok? && MakeId(r.name, r.topic) in s.producers ==>
              o.response == Failure(HttpError(StatusConflict, "already exist producer"))
    ensures BindProducerStartAsWritten(r, parse).Ok? && MakeId(r.name, r.topic) !in s.producers && conn.versionErr.Some? ==>
              o.response == Failure(HttpError(StatusInternalServerError, conn.versionErr.value))
    ensures BindProducerStartAsWritten(r, parse).Ok? && MakeId(r.name, r.topic) !in s.producers
            && conn.versionErr.None? && conn.clientErr.Some? ==>
              o.response == Failure(HttpError(StatusInternalServerError, conn.clientErr.value))
    ensures o.response.Reply? <==>
              && BindProducerStartAsWritten(r, parse).Ok? && MakeId(r.name, r.topic) !in s.producers
              && conn.versionErr.None? && conn.clientErr.None?
    ensures o.response.Reply? ==>
              var id := MakeId(r.name, r.topic);
              && o.server.producers.Keys == s.producers.Keys + {id}
              && (forall k :: k in s.producers ==> o.server.producers[k] == s.producers[k])
              && o.server.producers[id] == P.Producer(P.Config(id, r.topic, parse(r.interval).value), false, 0, 0, true)
              && o.response == Reply(StatusCreated, "created",
                                     map["name" := Text(id), "topic" := Text(r.topic), "interval" := Text(r.interval)])
    ensures o.response.Reply? && BindProducerStart(r, parse).Err? ==>
              P.TickerPanics(o.server.producers[MakeId(r.name, r.topic)].cfg.interval)
  {
    StartProducerWith(s, BindProducerStartAsWritten(r, parse), conn)
  }

  /** DELETE /v1/producer/{name}/{topic}: 404 if the key is absent; otherwise
      the producer is stopped once and only its key is removed, and the reply
      is 200 "deleted" with the raw name. */
  function StopProducer(s: Server, r: RawRequest): (o: Outcome)
    ensures o.server.consumers == s.consumers
    ensures BindStop(r).Err? ==> o == Outcome(s, Failure(BindStop(r).error), [])
    ensures BindStop(r).Ok? && MakeId(r.name, r.topic) !in s.producers ==>
              o == Outcome(s, Failure(HttpError(StatusNotFound, "producer " + MakeId(r.name, r.topic) + " not found")), [])
    ensures o.response.Reply? <==> BindStop(r).Ok? && MakeId(r.name, r.topic) in s.producers
    ensures o.response.Reply? ==>
              var id := MakeId(r.name, r.topic);
              && o.server.producers.Keys == s.producers.Keys - {id}
              && (forall k :: k in o.server.producers ==> o.server.producers[k] == s.producers[k])
              && o.calls == [ProducerStop(id)]
              && o.response == Reply(StatusOK, "deleted", map["name" := Text(r.name), "topic" := Text(r.topic)])
  {
    match BindStop(r)
    case Err(e) => Outcome(s, Failure(e), [])
    case Ok(t) =>
      var id := MakeId(t.name, t.topic);
      if id !in s.producers then
        Outcome(s, Failure(HttpError(StatusNotFound, "producer " + id + " not found")), [])
      else
        Outcome(s.(producers := s.producers - {id}),
                Reply(StatusOK, "deleted", map["name" := Text(t.name), "topic" := Text(t.topic)]),
                [ProducerStop(id)])
  }

  /** POST /v1/consumer/{name}/{topic}: like producer start, with the group id
      required; the reply echoes the parsed interval and the RAW shouldFail
      text. */
  function StartConsumer(s: Server, r: RawRequest, parse: DurationParser, conn: Connect, now: int): (o: Outcome)
    ensures o.server.producers == s.producers && o.calls == []
    ensures o.response.Failure? <==> o.server == s
    ensures BindConsumerStart(r, parse).Err? ==> o.response == Failure(BindConsumerStart(r, parse).error)
    ensures BindConsumerStart(r, parse).Ok? && MakeId(r.name, r.topic) in s.consumers ==>
              o.response == Failure(HttpError(StatusConflict, "already exist consumer"))
    ensures BindConsumerStart(r, parse).Ok? && MakeId(r.name, r.topic) !in s.consumers && conn.versionErr.Some? ==>
              o.response == Failure(HttpError(StatusInternalServerError, conn.versionErr.value))
    ensures BindConsumerStart(r, parse).Ok? && MakeId(r.name, r.topic) !in s.consumers
            && conn.versionErr.None? && conn.clientErr.Some? ==>
              o.response == Failure(HttpError(StatusInternalServerError, conn.clientErr.value))
    ensures o.response.Reply? <==>
              && BindConsumerStart(r, parse).Ok? && MakeId(r.name, r.topic) !in s.consumers
              && conn.versionErr.None? && conn.clientErr.None?
    ensures o.response.Reply? ==>
              var id := MakeId(r.name, r.topic);
              var q := BindConsumerStart(r, parse).value;
              && o.server.consumers.Keys == s.consumers.Keys + {id}
              && (forall k :: k in s.consumers ==> o.server.consumers[k] == s.consumers[k])
              && o.server.consumers[id]
                 == C.Consumer(C.Config(id, r.groupId, r.topic, q.interval, ParseShouldFail(r.shouldFail)), 0, now, 0)
              && o.response == Reply(StatusCreated, "created",
                                     map["name" := Text(id), "topic" := Text(r.topic), "groupId" := Text(r.groupId),
                                         "interval" := Nanos(q.interval), "shouldFail" := Text(r.shouldFail)])
  {
    match BindConsumerStart(r, parse)
    case Err(e) => Outcome(s, Failure(e), [])
    case Ok(q) =>
      var id := MakeId(q.name, q.topic);
      if id in s.consumers then Outcome(s, Failure(HttpError(StatusConflict, "already exist consumer")), [])
      else
        match C.NewConsumer(C.Config(id, q.groupId, q.topic, q.interval, q.shouldFail), conn, now)
        case Err(msg) => Outcome(s, Failure(HttpError(StatusInternalServerError, msg)), [])
        case Ok(w) =>
          Outcome(s.(consumers := s.consumers[id := w]),
                  Reply(StatusCreated, "created",
                        map["name" := Text(id), "topic" := Text(q.topic), "groupId" := Text(q.groupId),
                            "interval" := Nanos(q.interval), "shouldFail" := Text(q.shouldFailText)]),
                  [])
  }

  /** DELETE /v1/consumer/{name}/{topic}: as producer stop, on the consumers. */
  function StopConsumer(s: Server, r: RawRequest): (o: Outcome)
    ensures o.server.producers == s.producers
    ensures BindStop(r).Err? ==> o == Outcome(s, Failure(BindStop(r).error), [])
    ensures BindStop(r).Ok? && MakeId(r.name, r.topic) !in s.consumers ==>
              o == Outcome(s, Failure(HttpError(StatusNotFound, "consumer " + MakeId(r.name, r.topic) + " not found")), [])
    ensures o.response.Reply? <==> BindStop(r).Ok? && MakeId(r.name, r.topic) in s.consumers
    ensures o.response.Reply? ==>
              var id := MakeId(r.name, r.topic);
              && o.server.consumers.Keys == s.consumers.Keys - {id}
              && (forall k :: k in o.server.consumers ==> o.server.consumers[k] == s.consumers[k])
              && o.calls == [ConsumerStop(id)]
              && o.response == Reply(StatusOK, "deleted", map["name" := Text(r.name), "topic" := Text(r.topic)])
  {
    match BindStop(r)
    case Err(e) => Outcome(s, Failure(e), [])
    case Ok(t) =>
      var id := MakeId(t.name, t.topic);
      if id !in s.consumers then
        Outcome(s, Failure(HttpError(StatusNotFound, "consumer " + id + " not found")), [])
      else
        Outcome(s.(consumers := s.consumers - {id}),
                Reply(StatusOK, "deleted", map["name" := Text(t.name), "topic" := Text(t.topic)]),
                [ConsumerStop(id)])
  }

  /** What the reply of an update reports: name (the key) and topic, plus
      `interval` exactly when an interval was given and `shouldFail` exactly
      when a flag was given, each with its parsed value. */
  predicate ReportsUpdate(m: map<string, Value>, id: string, u: ConsumerUpdate) {
    && m.Keys == {"name", "topic"} + (if u.intervalText != "" then {"interval"} else {})
                                   + (if u.shouldFailText != "" then {"shouldFail"} else {})
    && m["name"] == Text(id) && m["topic"] == Text(u.topic)
    && (u.intervalText != "" ==> m["interval"] == Nanos(u.interval))
    && (u.shouldFailText != "" ==> m["shouldFail"] == Flag(u.shouldFail))
  }

  /** `d` is `c` with at most its interval and its flag changed. */
  predicate KeepsIdentity(c: C.Consumer, d: C.Consumer) {
    && d.cfg.name == c.cfg.name && d.cfg.groupId == c.cfg.groupId && d.cfg.topic == c.cfg.topic
    && d.proceed == c.proceed && d.lastConsume == c.lastConsume && d.closeCalls == c.closeCalls
  }

  /** The reply metadata of an update. */
  function UpdateMetadata(id: string, u: ConsumerUpdate): (m: map<string, Value>)
    ensures ReportsUpdate(m, id, u)
  {
    var base := map["name" := Text(id), "topic" := Text(u.topic)];
    var withInterval := if u.intervalText != "" then base["interval" := Nanos(u.interval)] else base;
    if u.shouldFailText != "" then withInterval["shouldFail" := Flag(u.shouldFail)] else withInterval
  }

  /** The consumer after an update: each field named by the request is set,
      independently of the other. */
  function Reconfigure(c: C.Consumer, u: ConsumerUpdate): (d: C.Consumer)
    ensures d.cfg.interval == (if u.intervalText != "" then u.interval else c.cfg.interval)
    ensures d.cfg.shouldFail == (if u.shouldFailText != "" then u.shouldFail else c.cfg.shouldFail)
    ensures KeepsIdentity(c, d)
  {
    var c1 := if u.intervalText != "" then C.SetConsumeInterval(c, u.interval) else c;
    if u.shouldFailText != "" then C.SetShouldFail(c1, u.shouldFail) else c1
  }

  /** PUT /v1/consumer/{name}/{topic}: 404 if the key is absent; otherwise the
      interval changes exactly when its text is non-empty and the flag changes
      exactly when its text is non-empty, independently, and the reply is 201
      "updated" listing the changed fields. */
  function UpdateConsumer(s: Server, r: RawRequest, parse: DurationParser): (o: Outcome)
    ensures o.server.producers == s.producers
    ensures o.server.consumers.Keys == s.consumers.Keys
    ensures BindConsumerUpdate(r, parse).Err? ==> o == Outcome(s, Failure(BindConsumerUpdate(r, parse).error), [])
    ensures BindConsumerUpdate(r, parse).Ok? && MakeId(r.name, r.topic) !in s.consumers ==>
              o == Outcome(s, Failure(HttpError(StatusNotFound, "consumer " + MakeId(r.name, r.topic) + " not found")), [])
    ensures o.response.Reply? <==> BindConsumerUpdate(r, parse).Ok? && MakeId(r.name, r.topic) in s.consumers
    ensures o.response.Reply? ==>
              var id := MakeId(r.name, r.topic);
              var u := BindConsumerUpdate(r, parse).value;
              var c, d := s.consumers[id], o.server.consumers[id];
              && (forall k :: k in s.consumers && k != id ==> o.server.consumers[k] == s.consumers[k])
              && d.cfg.interval == (if r.interval != "" then u.interval else c.cfg.interval)
              && d.cfg.shouldFail == (if r.shouldFail != "" then u.shouldFail else c.cfg.shouldFail)
              && KeepsIdentity(c, d)
              && o.response.code == StatusCreated && o.response.status == "updated"
              && ReportsUpdate(o.response.metadata, id, u)
    ensures o.response.Reply? ==>
              var id := MakeId(r.name, r.topic);
              var u := BindConsumerUpdate(r, parse).value;
              && |o.calls| == (if r.interval != "" then 1 else 0) + (if r.shouldFail != "" then 1 else 0)
              && (ConsumerSetInterval(id, u.interval) in o.calls <==> r.interval != "")
              && (ConsumerSetShouldFail(id, u.shouldFail) in o.calls <==> r.shouldFail != "")
              && (r.interval != "" ==> o.calls[0] == ConsumerSetInterval(id, u.interval))
  {
    match BindConsumerUpdate(r, parse)
    case Err(e) => Outcome(s, Failure(e), [])
    case Ok(u) =>
      var id := MakeId(u.name, u.topic);
      if id !in s.consumers then
        Outcome(s, Failure(HttpError(StatusNotFound, "consumer " + id + " not found")), [])
      else
        var calls := (if u.intervalText != "" then [ConsumerSetInterval(id, u.interval)] else [])
                   + (if u.shouldFailText != "" then [ConsumerSetShouldFail(id, u.shouldFail)] else []);
        Outcome(s.(consumers := s.consumers[id := Reconfigure(s.consumers[id], u)]),
                Reply(StatusCreated, "updated", UpdateMetadata(id, u)),
                calls)
  }

  /** The second copy of the update handler: in its flag branch it sets the
      INTERVAL (to the parsed interval, zero when the interval text is empty)
      instead of the flag; the reply is built the same way. */
  function UpdateConsumerVariant(s: Server, r: RawRequest, parse: DurationParser): (o: Outcome)
    ensures o.server.producers == s.producers
    ensures o.server.consumers.Keys == s.consumers.Keys
    ensures o.response == UpdateConsumer(s, r, parse).response
    ensures o.response.Failure? ==> o.server == s
    ensures o.response.Reply? ==>
              var id := MakeId(r.name, r.topic);
              var u := BindConsumerUpdate(r, parse).value;
              && id in s.consumers && id in o.server.consumers
              && (forall k :: k in s.consumers && k != id ==> o.server.consumers[k] == s.consumers[k])
              && o.server.consumers[id].cfg.shouldFail == s.consumers[id].cfg.shouldFail
              && KeepsIdentity(s.consumers[id], o.server.consumers[id])
              && o.server.consumers[id].cfg.interval
                 == (if r.interval != "" || r.shouldFail != "" then u.interval else s.consumers[id].cfg.interval)
    ensures o.response.Failure? ==> o.calls == []
    ensures o.response.Reply? ==>
              var id := MakeId(r.name, r.topic);
              var u := BindConsumerUpdate(r, parse).value;
              && |o.calls| == (if r.interval != "" then 1 else 0) + (if r.shouldFail != "" then 1 else 0)
              && (forall i :: 0 <= i < |o.calls| ==> o.calls[i] == ConsumerSetInterval(id, u.interval))
  {
    match BindConsumerUpdate(r, parse)
    case Err(e) => Outcome(s, Failure(e), [])
    case Ok(u) =>
      var id := MakeId(u.name, u.topic);
      if id !in s.consumers then
        Outcome(s, Failure(HttpError(StatusNotFound, "consumer " + id + " not found")), [])
      else
        var c0 := s.consumers[id];
        var c1 := if u.intervalText != "" then C.SetConsumeInterval(c0, u.interval) else c0;
        var c2 := if u.shouldFailText != "" then C.SetConsumeInterval(c1, u.interval) else c1;
        var calls := (if u.intervalText != "" then [ConsumerSetInterval(id, u.interval)] else [])
                   + (if u.shouldFailText != "" then [ConsumerSetInterval(id, u.interval)] else []);
        Outcome(s.(consumers := s.consumers[id := c2]),
                Reply(StatusCreated, "updated", UpdateMetadata(id, u)),
                calls)
  }

  /** Shutdown stops every registered producer and every registered consumer
      and removes nothing from either map. */
  function Shutdown(s: Server): (t: Server)
    ensures t.producers.Keys == s.producers.Keys && t.consumers.Keys == s.consumers.Keys
    ensures forall id :: id in t.producers ==> t.producers[id] == P.Stop(s.producers[id])
    ensures forall id :: id in t.consumers ==> t.consumers[id] == C.Stop(s.consumers[id])
  {
    Server(map id | id in s.producers :: P.Stop(s.producers[id]),
           map id | id in s.consumers :: C.Stop(s.consumers[id]))
  }
}

=== FILE: registry_properties.dfy ===
/** Properties of the registry that relate several handler calls: the
    invariant every handler keeps, conflict and not-found behaviour across
    call sequences, the independence of the two namespaces, what shutdown
    leaves behind, and how the two copies of the update handler differ. */
module RegistryProperties {
  import opened Basics
  import opened Validation
  import opened Registry
  import P = ProducerWorker
  import C = ConsumerWorker

  const ConnectOk := Connect(None, None)

  /** Every handler keeps the registry invariant. */
  lemma StartProducerKeepsValid(s: Server, r: RawRequest, parse: DurationParser, conn: Connect)
    requires Valid(s)
    ensures Valid(StartProducer(s, r, parse, conn).server)
  {
    var o := StartProducer(s, r, parse, conn);
    if o.response.Reply? {
      var id := MakeId(r.name, r.topic);
      assert BindProducerStart(r, parse).value.interval == parse(r.interval).value;
      forall k | k in o.server.producers
        ensures o.server.producers[k].cfg.name == k && !o.server.producers[k].closed
        ensures o.server.producers[k].running && o.server.producers[k].clientCloses == 0
        ensures !P.TickerPanics(o.server.producers[k].cfg.interval)
      {
        if k != id {
          assert k in s.producers;
        }
      }
    }
  }

  lemma StopProducerKeepsValid(s: Server, r: RawRequest)
    requires Valid(s)
    ensures Valid(StopProducer(s, r).server)
  {
  }

  lemma StartConsumerKeepsValid(s: Server, r: RawRequest, parse: DurationParser, conn: Connect, now: int)
    requires Valid(s)
    ensures Valid(StartConsumer(s, r, parse, conn, now).server)
  {
    var o := StartConsumer(s, r, parse, conn, now);
    if o.response.Reply? {
      var id := MakeId(r.name, r.topic);
      forall k | k in o.server.consumers
        ensures o.server.consumers[k].cfg.name == k && o.server.consumers[k].closeCalls == 0
      {
        if k != id {
          assert k in s.consumers;
        }
      }
    }
  }

  lemma StopConsumerKeepsValid(s: Server, r: RawRequest)
    requires Valid(s)
    ensures Valid(StopConsumer(s, r).server)
  {
  }

  lemma UpdateConsumerKeepsValid(s: Server, r: RawRequest, parse: DurationParser)
    requires Valid(s)
    ensures Valid(UpdateConsumer(s, r, parse).server)
  {
    var o := UpdateConsumer(s, r, parse);
    if o.response.Reply? {
      var id := MakeId(r.name, r.topic);
      forall k | k in o.server.consumers
        ensures o.server.consumers[k].cfg.name == k && o.server.consumers[k].closeCalls == 0
      {
        assert k in s.consumers;
      }
    }
  }

  lemma UpdateConsumerVariantKeepsValid(s: Server, r: RawRequest, parse: DurationParser)
    requires Valid(s)
    ensures Valid(UpdateConsumerVariant(s, r, parse).server)
  {
    var o := UpdateConsumerVariant(s, r, parse);
    if o.response.Reply? {
      var id := MakeId(r.name, r.topic);
      forall k | k in o.server.consumers
        ensures o.server.consumers[k].cfg.name == k && o.server.consumers[k].closeCalls == 0
      {
        assert k in s.consumers;
      }
    }
  }

  /** A second start for a key that is registered is a conflict and changes
      nothing, so exactly one worker stays registered under the key. */
  lemma StartProducerTwiceConflicts(s: Server, r: RawRequest, parse: DurationParser, c1: Connect, c2: Connect)
    requires StartProducer(s, r, parse, c1).response.Reply?
    ensures var o1 := StartProducer(s, r, parse, c1);
            var o2 := StartProducer(o1.server, r, parse, c2);
            && o2.response == Failure(HttpError(StatusConflict, "already exist producer"))
            && o2.server == o1.server
  {
  }

  lemma StartConsumerTwiceConflicts(s: Server, r: RawRequest, parse: DurationParser, c1: Connect, c2: Connect, t1: int, t2: int)
    requires StartConsumer(s, r, parse, c1, t1).response.Reply?
    ensures var o1 := StartConsumer(s, r, parse, c1, t1);
            var o2 := StartConsumer(o1.server, r, parse, c2, t2);
            && o2.response == Failure(HttpError(StatusConflict, "already exist consumer"))
            && o2.server == o1.server
  {
  }

  /** Once a stop has removed a key, a second stop for it is a 404 that
      changes nothing and stops nothing. */
  lemma StopProducerTwiceNotFound(s: Server, r: RawRequest)
    requires StopProducer(s, r).response.Reply?
    ensures var o1 := StopProducer(s, r);
            var o2 := StopProducer(o1.server, r);
            && o2.response.Failure? && o2.response.error.code == StatusNotFound
            && o2.server == o1.server && o2.calls == []
  {
  }

  lemma StopConsumerTwiceNotFound(s: Server, r: RawRequest)
    requires StopConsumer(s, r).response.Reply?
    ensures var o1 := StopConsumer(s, r);
            var o2 := StopConsumer(o1.server, r);
            && o2.response.Failure? && o2.response.error.code == StatusNotFound
            && o2.server == o1.server && o2.calls == []
  {
  }

  /** Stop releases the key completely: start, stop, start again succeeds
      when the broker answers the second time as it did the first. */
  lemma ProducerStartStopStart(s: Server, r: RawRequest, parse: DurationParser, conn: Connect)
    requires StartProducer(s, r, parse, conn).response.Reply?
    ensures var o1 := StartProducer(s, r, parse, conn);
            var o2 := StopProducer(o1.server, r);
            && o2.response.Reply?
            && StartProducer(o2.server, r, parse, conn).response.Reply?
  {
    var o1 := StartProducer(s, r, parse, conn);
    assert BindStop(r).Ok?;
    var o2 := StopProducer(o1.server, r);
    assert MakeId(r.name, r.topic) !in o2.server.producers;
  }

  lemma ConsumerStartStopStart(s: Server, r: RawRequest, parse: DurationParser, conn: Connect, t1: int, t2: int)
    requires StartConsumer(s, r, parse, conn, t1).response.Reply?
    ensures var o1 := StartConsumer(s, r, parse, conn, t1);
            var o2 := StopConsumer(o1.server, r);
            && o2.response.Reply?
            && StartConsumer(o2.server, r, parse, conn, t2).response.Reply?
  {
    var o1 := StartConsumer(s, r, parse, conn, t1);
    assert BindStop(r).Ok?;
    var o2 := StopConsumer(o1.server, r);
    assert MakeId(r.name, r.topic) !in o2.server.consumers;
  }

  /** Producers and consumers are separate namespaces: on a fresh server a
      producer and a consumer can both be registered under the same key. */
  lemma SameKeyInBothRoles(r: RawRequest, parse: DurationParser, now: int)
    requires BindProducerStart(r, parse).Ok? && BindConsumerStart(r, parse).Ok?
    ensures var o1 := StartProducer(NewServer(), r, parse, ConnectOk);
            var o2 := StartConsumer(o1.server, r, parse, ConnectOk, now);
            && o1.response.Reply? && o2.response.Reply?
            && MakeId(r.name, r.topic) in o2.server.producers
            && MakeId(r.name, r.topic) in o2.server.consumers
  {
  }

  /** An update that names neither field keeps the consumer as it was, calls
      nothing, and still answers 201 "updated" with only name and topic. */
  lemma UpdateWithNothingKeepsConfig(s: Server, r: RawRequest, parse: DurationParser)
    requires r.interval == "" && r.shouldFail == ""
    requires r.name != "" && r.topic != "" && MakeId(r.name, r.topic) in s.consumers
    ensures var o := UpdateConsumer(s, r, parse);
            && o.server == s && o.calls == []
            && o.response == Reply(StatusCreated, "updated",
                                   map["name" := Text(MakeId(r.name, r.topic)), "topic" := Text(r.topic)])
  {
    var o := UpdateConsumer(s, r, parse);
    var id := MakeId(r.name, r.topic);
    assert o.server.consumers[id] == s.consumers[id];
    assert o.server.consumers == s.consumers;
  }

  /** The two copies of the update handler answer the same and agree when no
      flag is given. Given a flag, the primary copy sets the flag and leaves
      the interval alone unless it was given too, while the second copy
      leaves the flag alone and sets the interval to the parsed interval,
      zero when none was given. */
  lemma UpdateVariantDiffers(s: Server, r: RawRequest, parse: DurationParser)
    ensures var a := UpdateConsumer(s, r, parse);
            var b := UpdateConsumerVariant(s, r, parse);
            && a.response == b.response
            && (r.shouldFail == "" ==> a == b)
            && (a.response.Reply? && r.shouldFail != "" ==>
                  var id := MakeId(r.name, r.topic);
                  var u := BindConsumerUpdate(r, parse).value;
                  && a.server.consumers[id].cfg.shouldFail == ParseShouldFail(r.shouldFail)
                  && b.server.consumers[id].cfg.shouldFail == s.consumers[id].cfg.shouldFail
                  && a.server.consumers[id].cfg.interval
                     == (if r.interval == "" then s.consumers[id].cfg.interval else u.interval)
                  && b.server.consumers[id].cfg.interval == u.interval
                  && (r.interval == "" ==> b.server.consumers[id].cfg.interval == 0)
                  && a.calls[|a.calls| - 1] == ConsumerSetShouldFail(id, ParseShouldFail(r.shouldFail))
                  && b.calls[|b.calls| - 1] == ConsumerSetInterval(id, u.interval)
                  && b.server.producers == a.server.producers
                  && b.server.consumers.Keys == a.server.consumers.Keys
                  && (forall k :: k in a.server.consumers && k != id ==> b.server.consumers[k] == a.server.consumers[k])
                  && b.server.consumers[id]
                     == a.server.consumers[id].(cfg := a.server.consumers[id].cfg.(shouldFail := s.consumers[id].cfg.shouldFail,
                                                                                  interval := u.interval)))
  {
  }

  /** Concretely: asking the second copy to switch failure simulation on for
      a consumer throttled at 5 ns drops the throttle to zero, leaves the flag
      off, and still reports `shouldFail: true`. */
  lemma UpdateVariantDropsShouldFail(parse: DurationParser)
    ensures var id := MakeId("c1", "topicA");
            var c := C.Consumer(C.Config(id, "g1", "topicA", 5, false), 0, 0, 0);
            var s := Server(map[], map[id := c]);
            var r := RawRequest("c1", "topicA", "", "", "true");
            var b := UpdateConsumerVariant(s, r, parse);
            && b.server.consumers[id].cfg.interval == 0
            && !b.server.consumers[id].cfg.shouldFail
            && b.response.metadata["shouldFail"] == Flag(true)
  {
    var id := MakeId("c1", "topicA");
    assert ParseShouldFail("true");
  }

  /** Shutdown stops every worker of a valid registry exactly once and keeps
      every entry, so afterwards the registry holds only stopped workers. */
  lemma ShutdownStopsEveryWorker(s: Server)
    requires Valid(s)
    ensures var t := Shutdown(s);
            && t.producers.Keys == s.producers.Keys && t.consumers.Keys == s.consumers.Keys
            && (forall id :: id in t.producers ==> t.producers[id].closed && t.producers[id].clientCloses == 1)
            && (forall id :: id in t.consumers ==> t.consumers[id].closeCalls == 1)
            && (|s.producers| + |s.consumers| > 0 ==> !Valid(t))
  {
    var t := Shutdown(s);
    if |s.producers| > 0 {
      var id :| id in s.producers;
      assert t.producers[id].closed;
    } else if |s.consumers| > 0 {
      var id :| id in s.consumers;
      assert t.consumers[id].closeCalls == 1;
    }
  }

  /** A duration parser that knows only the text "100ms". */
  function Parse100ms(text: string): Option<int> {
    if text == "100ms" then Some(100_000_000) else None
  }

  /** The end-to-end producer scenario, first half: starting p1 on topicA
      every 100ms answers 201, keyed p1_topicA, and registers a running
      producer with that period. */
  lemma ProducerScenarioStart()
    ensures StartProducer(NewServer(), RawRequest("p1", "topicA", "", "100ms", ""), Parse100ms, ConnectOk)
            == Outcome(Server(map["p1_topicA" := P.Producer(P.Config("p1_topicA", "topicA", 100_000_000), false, 0, 0, true)], map[]),
                       Reply(StatusCreated, "created",
                             map["name" := Text("p1_topicA"), "topic" := Text("topicA"), "interval" := Text("100ms")]),
                       [])
  {
    var r := RawRequest("p1", "topicA", "", "100ms", "");
    assert MakeId("p1", "topicA") == "p1_topicA";
    assert BindProducerStart(r, Parse100ms) == Ok(ProducerStart("p1", "topicA", "100ms", 100_000_000));
  }

  /** Second half: stopping that producer answers 200 and empties the
      registry; stopping it again answers 404. */
  lemma ProducerScenarioStops()
    ensures var r := RawRequest("p1", "topicA", "", "100ms", "");
            var s1 := Server(map["p1_topicA" := P.Producer(P.Config("p1_topicA", "topicA", 100_000_000), false, 0, 0, true)], map[]);
            && StopProducer(s1, r).response == Reply(StatusOK, "deleted", map["name" := Text("p1"), "topic" := Text("topicA")])
            && StopProducer(s1, r).server == Server(map[], map[])
            && StopProducer(Server(map[], map[]), r).response == Failure(HttpError(StatusNotFound, "producer p1_topicA not found"))
  {
    var r := RawRequest("p1", "topicA", "", "100ms", "");
    var id := MakeId("p1", "topicA");
    assert id == "p1_topicA";
    assert BindStop(r) == Ok(Target("p1", "topicA"));
    var s1 := Server(map[id := P.Producer(P.Config(id, "topicA", 100_000_000), false, 0, 0, true)], map[]);
    assert s1.producers - {id} == map[];
    assert "producer " + id + " not found" == "producer p1_topicA not found";
  }

  /** The end-to-end consumer scenario: start c1 on topicA in group g1 with no
      interval (201, interval 0, the empty flag text echoed), then switch
      failure simulation on (201 "updated", reporting name, topic and the
      flag, and the consumer now skips commits). */
  lemma ConsumerScenario(parse: DurationParser, now: int)
    ensures var id := MakeId("c1", "topicA");
            var o1 := StartConsumer(NewServer(), RawRequest("c1", "topicA", "g1", "", ""), parse, ConnectOk, now);
            var o2 := UpdateConsumer(o1.server, RawRequest("c1", "topicA", "", "", "true"), parse);
            && o1.response.Reply? && o1.response.code == StatusCreated
            && o1.response.metadata["interval"] == Nanos(0)
            && o1.response.metadata["shouldFail"] == Text("")
            && !o1.server.consumers[id].cfg.shouldFail
            && o2.response == Reply(StatusCreated, "updated",
                                    map["name" := Text(id), "topic" := Text("topicA"), "shouldFail" := Flag(true)])
            && o2.server.consumers[id].cfg.shouldFail
  {
    var id := MakeId("c1", "topicA");
    assert !ParseShouldFail("") && ParseShouldFail("true");
    var o1 := StartConsumer(NewServer(), RawRequest("c1", "topicA", "g1", "", ""), parse, ConnectOk, now);
    assert BindConsumerStart(RawRequest("c1", "topicA", "g1", "", ""), parse).Ok?;
    var r2 := RawRequest("c1", "topicA", "", "", "true");
    assert BindConsumerUpdate(r2, parse).Ok?;
    var o2 := UpdateConsumer(o1.server, r2, parse);
    assert o2.response.metadata == map["name" := Text(id), "topic" := Text("topicA"), "shouldFail" := Flag(true)];
  }

  /** A parser that knows only the zero duration "0s". */
  function ParseZero(text: string): Option<int> {
    if text == "0s" then Some(0) else None
  }

  /** As written, producer start accepts a zero period: "0s" parses, the
      request passes validation, the producer would be built, and its send
      loop's ticker panics, taking the process down. */
  lemma ZeroIntervalAcceptedAsWritten()
    ensures var b := BindProducerStartAsWritten(RawRequest("p1", "topicA", "", "0s", ""), ParseZero);
            && b.Ok? && P.TickerPanics(b.value.interval)
  {
  }

  /** As written, the whole handler goes through with that request: it
      answers 201 and registers a producer whose ticker refuses its period,
      so the registry no longer satisfies its invariant. */
  lemma ZeroIntervalRegisteredAsWritten()
    ensures var o := StartProducerAsWritten(NewServer(), RawRequest("p1", "topicA", "", "0s", ""), ParseZero, ConnectOk);
            && o.response == Reply(StatusCreated, "created",
                                   map["name" := Text("p1_topicA"), "topic" := Text("topicA"), "interval" := Text("0s")])
            && "p1_topicA" in o.server.producers
            && P.TickerPanics(o.server.producers["p1_topicA"].cfg.interval)
            && !Valid(o.server)
  {
    var r0 := RawRequest("p1", "topicA", "", "0s", "");
    assert MakeId("p1", "topicA") == "p1_topicA";
    assert BindProducerStartAsWritten(r0, ParseZero) == Ok(ProducerStart("p1", "topicA", "0s", 0));
    assert BindProducerStart(r0, ParseZero).Err?;
  }

  /** With the corrected validation, the same request is refused with 400. */
  lemma ZeroIntervalRefused()
    ensures BindProducerStart(RawRequest("p1", "topicA", "", "0s", ""), ParseZero)
              == Err(HttpError(StatusBadRequest, "interval must be positive: 0s"))
    ensures StartProducer(NewServer(), RawRequest("p1", "topicA", "", "0s", ""), ParseZero, ConnectOk).response
              == Failure(HttpError(StatusBadRequest, "interval must be positive: 0s"))
  {
    var r0 := RawRequest("p1", "topicA", "", "0s", "");
    assert BindProducerStartAsWritten(r0, ParseZero) == Ok(ProducerStart("p1", "topicA", "0s", 0));
    assert "interval must be positive: " + "0s" == "interval must be positive: 0s";
  }

  /** No producer the corrected handler registers has a period its ticker
      refuses, whatever the request and the parser. */
  lemma StartedProducersTick(s: Server, r: RawRequest, parse: DurationParser, conn: Connect)
    ensures var o := StartProducer(s, r, parse, conn);
            o.response.Reply? ==> !P.TickerPanics(o.server.producers[MakeId(r.name, r.topic)].cfg.interval)
  {
  }
}

=== FILE: validation.dfy ===
/** Request validation for the management API: the checks each request kind
    runs after the web framework has bound its path and query parameters.

    A duration is an integer number of nanoseconds. The standard library's
    duration parser is not modelled; every function that needs it takes it as
    a parameter `parse`, which answers `None` for text it rejects. */
module Validation {
  import opened Basics

  /** A duration parser: `Some(nanoseconds)` or `None` when the text is malformed. */
  type DurationParser = string -> Option<int>

  /** The raw parameters of one request: `name` and `topic` from the path,
      the rest from the query string (absent parameters are empty). */
  datatype RawRequest = RawRequest(
    name: string,
    topic: string,
    groupId: string,
    interval: string,
    shouldFail: string)

  /** A validated producer start request; `intervalText` is the raw query value. */
  datatype ProducerStart = ProducerStart(name: string, topic: string, intervalText: string, interval: int)

  /** A validated stop request (producer or consumer). */
  datatype Target = Target(name: string, topic: string)

  /** A validated consumer start request. */
  datatype ConsumerStart = ConsumerStart(
    name: string,
    topic: string,
    groupId: string,
    intervalText: string,
    shouldFailText: string,
    interval: int,
    shouldFail: bool)

  /** A validated consumer update request. */
  datatype ConsumerUpdate = ConsumerUpdate(
    name: string,
    topic: string,
    intervalText: string,
    shouldFailText: string,
    interval: int,
    shouldFail: bool)

  /** Path parameters are required: the name is checked first, then the topic. */
  function CheckNameAndTopic(r: RawRequest): (e: Option<HttpError>)
    ensures e.None? <==> r.name != "" && r.topic != ""
    ensures r.name == "" ==> e == Some(HttpError(StatusBadRequest, "require name in path"))
    ensures r.name != "" && r.topic == "" ==> e == Some(HttpError(StatusBadRequest, "require topic in path"))
  {
    if r.name == "" then Some(HttpError(StatusBadRequest, "require name in path"))
    else if r.topic == "" then Some(HttpError(StatusBadRequest, "require topic in path"))
    else None
  }

  /** The consumer group id is checked only once name and topic have passed. */
  function CheckNameTopicGroupId(r: RawRequest): (e: Option<HttpError>)
    ensures e.None? <==> r.name != "" && r.topic != "" && r.groupId != ""
    ensures CheckNameAndTopic(r).Some? ==> e == CheckNameAndTopic(r)
    ensures r.name != "" && r.topic != "" && r.groupId == "" ==>
              e == Some(HttpError(StatusBadRequest, "require groupId in query"))
  {
    var e0 := CheckNameAndTopic(r);
    if e0.Some? then e0
    else if r.groupId == "" then Some(HttpError(StatusBadRequest, "require groupId in query"))
    else None
  }

  /** A required duration: empty text is refused before the parser is asked;
      otherwise the text is refused exactly when the parser refuses it. */
  function ParseDuration(val: string, parse: DurationParser): (r: Result<int, HttpError>)
    ensures val == "" ==> r == Err(HttpError(StatusBadRequest, "require interval in query params"))
    ensures val != "" ==> (r.Err? <==> parse(val).None?)
    ensures val != "" && r.Err? ==> r.error == HttpError(StatusBadRequest, "invalid duration: " + val)
    ensures r.Ok? ==> parse(val) == Some(r.value)
  {
    if val == "" then Err(HttpError(StatusBadRequest, "require interval in query params"))
    else match parse(val)
      case None => Err(HttpError(StatusBadRequest, "invalid duration: " + val))
      case Some(d) => Ok(d)
  }

  /** ASCII lower-casing; the only characters whose Unicode case folding
      reaches one of the letters of "true" are their ASCII upper-case forms. */
  function Lower(c: char): char {
    if 'A' <= c <= 'Z' then (c as int - 'A' as int + 'a' as int) as char else c
  }

  /** Equality of two strings up to the case of ASCII letters, character by
      character. This agrees with full Unicode case folding whenever one side
      is "true" (see `Lower`), which is the only way it is used. */
  predicate AsciiEqualFold(a: string, b: string) {
    |a| == |b| && (|a| == 0 || (Lower(a[0]) == Lower(b[0]) && AsciiEqualFold(a[1..], b[1..])))
  }

  /** The texts equal to "true" up to case are its sixteen casings. */
  lemma {:induction false} TrueCasings(s: string)
    ensures AsciiEqualFold(s, "true") <==>
              |s| == 4 && (s[0] == 't' || s[0] == 'T') && (s[1] == 'r' || s[1] == 'R')
              && (s[2] == 'u' || s[2] == 'U') && (s[3] == 'e' || s[3] == 'E')
  {
    var t := "true";
    if |s| == 4 {
      assert AsciiEqualFold(s, t) <==> Lower(s[0]) == 't' && AsciiEqualFold(s[1..], t[1..]);
      assert AsciiEqualFold(s[1..], t[1..]) <==> Lower(s[1]) == 'r' && AsciiEqualFold(s[2..], t[2..]);
      assert AsciiEqualFold(s[2..], t[2..]) <==> Lower(s[2]) == 'u' && AsciiEqualFold(s[3..], t[3..]);
      assert AsciiEqualFold(s[3..], t[3..]) <==> Lower(s[3]) == 'e' && AsciiEqualFold(s[4..], t[4..]);
      assert AsciiEqualFold(s[4..], t[4..]);
    }
  }

  /** The failure-simulation flag is set exactly by the sixteen casings of
      "true"; every other text, the empty one included, leaves it unset. */
  function ParseShouldFail(s: string): (on: bool)
    ensures on <==>
              |s| == 4 && (s[0] == 't' || s[0] == 'T') && (s[1] == 'r' || s[1] == 'R')
              && (s[2] == 'u' || s[2] == 'U') && (s[3] == 'e' || s[3] == 'E')
    ensures s == "" ==> !on
  {
    TrueCasings(s);
    AsciiEqualFold(s, "true")
  }

  /** An optional duration: empty text means zero and is not an error. */
  function ParseOptionalDuration(val: string, parse: DurationParser): (r: Result<int, HttpError>)
    ensures val == "" ==> r == Ok(0)
    ensures val != "" ==> r == ParseDuration(val, parse)
  {
    if val == "" then Ok(0) else ParseDuration(val, parse)
  }

  /** Producer start, as the code is written: name and topic, then a required
      interval. Any interval the parser accepts passes, zero and negative
      ones included. */
  function BindProducerStartAsWritten(r: RawRequest, parse: DurationParser): (b: Result<ProducerStart, HttpError>)
    ensures CheckNameAndTopic(r).Some? ==> b == Err(CheckNameAndTopic(r).value)
    ensures r.interval == "" ==> b.Err? && b.error.code == StatusBadRequest
    ensures CheckNameAndTopic(r).None? && r.interval == "" ==>
              b == Err(HttpError(StatusBadRequest, "require interval in query params"))
    ensures CheckNameAndTopic(r).None? && r.interval != "" && parse(r.interval).None? ==>
              b == Err(HttpError(StatusBadRequest, "invalid duration: " + r.interval))
    ensures b.Ok? <==> CheckNameAndTopic(r).None? && r.interval != "" && parse(r.interval).Some?
    ensures b.Ok? ==> b.value == ProducerStart(r.name, r.topic, r.interval, parse(r.interval).value)
  {
    var e := CheckNameAndTopic(r);
    if e.Some? then Err(e.value)
    else match ParseDuration(r.interval, parse)
      case Err(err) => Err(err)
      case Ok(d) => Ok(ProducerStart(r.name, r.topic, r.interval, d))
  }

  /** Producer start, corrected: a period that is not positive is refused
      with 400, since the send loop cannot tick with such a period. On every
      other request it answers exactly as the code as written does. */
  function BindProducerStart(r: RawRequest, parse: DurationParser): (b: Result<ProducerStart, HttpError>)
    ensures b.Ok? ==> b.value.interval > 0
    ensures b.Ok? <==> BindProducerStartAsWritten(r, parse).Ok? && BindProducerStartAsWritten(r, parse).value.interval > 0
    ensures b.Ok? ==> b == BindProducerStartAsWritten(r, parse)
    ensures BindProducerStartAsWritten(r, parse).Err? ==> b == BindProducerStartAsWritten(r, parse)
    ensures b.Err? && BindProducerStartAsWritten(r, parse).Ok? ==>
              b.error == HttpError(StatusBadRequest, "interval must be positive: " + r.interval)
  {
    match BindProducerStartAsWritten(r, parse)
    case Err(e) => Err(e)
    case Ok(p) =>
      if p.interval <= 0 then Err(HttpError(StatusBadRequest, "interval must be positive: " + r.interval))
      else Ok(p)
  }

  /** Producer stop and consumer stop bind the same way: name and topic only. */
  function BindStop(r: RawRequest): (b: Result<Target, HttpError>)
    ensures b.Ok? <==> r.name != "" && r.topic != ""
    ensures b.Err? ==> b.error == CheckNameAndTopic(r).value
    ensures b.Ok? ==> b.value == Target(r.name, r.topic)
  {
    var e := CheckNameAndTopic(r);
    if e.Some? then Err(e.value) else Ok(Target(r.name, r.topic))
  }

  /** Consumer start: name, topic and group id are required; the interval is
      optional (zero when absent) and the flag is a case-insensitive "true". */
  function BindConsumerStart(r: RawRequest, parse: DurationParser): (b: Result<ConsumerStart, HttpError>)
    ensures CheckNameTopicGroupId(r).Some? ==> b == Err(CheckNameTopicGroupId(r).value)
    ensures b.Ok? <==> CheckNameTopicGroupId(r).None? && (r.interval == "" || parse(r.interval).Some?)
    ensures CheckNameTopicGroupId(r).None? && b.Err? ==>
              b.error == HttpError(StatusBadRequest, "invalid duration: " + r.interval)
    ensures b.Ok? ==> && b.value.name == r.name && b.value.topic == r.topic && b.value.groupId == r.groupId
                      && b.value.intervalText == r.interval && b.value.shouldFailText == r.shouldFail
                      && b.value.interval == (if r.interval == "" then 0 else parse(r.interval).value)
                      && (b.value.shouldFail <==> ParseShouldFail(r.shouldFail))
  {
    var e := CheckNameTopicGroupId(r);
    if e.Some? then Err(e.value)
    else match ParseOptionalDuration(r.interval, parse)
      case Err(err) => Err(err)
      case Ok(d) =>
        Ok(ConsumerStart(r.name, r.topic, r.groupId, r.interval, r.shouldFail, d, ParseShouldFail(r.shouldFail)))
  }

  /** Consumer update: only name and topic are required (the group id is
      ignored); interval and flag are parsed as for consumer start. */
  function BindConsumerUpdate(r: RawRequest, parse: DurationParser): (b: Result<ConsumerUpdate, HttpError>)
    ensures CheckNameAndTopic(r).Some? ==> b == Err(CheckNameAndTopic(r).value)
    ensures b.Ok? <==> CheckNameAndTopic(r).None? && (r.interval == "" || parse(r.interval).Some?)
    ensures CheckNameAndTopic(r).None? && b.Err? ==>
              b.error == HttpError(StatusBadRequest, "invalid duration: " + r.interval)
    ensures b.Ok? ==> && b.value.name == r.name && b.value.topic == r.topic
                      && b.value.intervalText == r.interval && b.value.shouldFailText == r.shouldFail
                      && b.value.interval == (if r.interval == "" then 0 else parse(r.interval).value)
                      && (b.value.shouldFail <==> ParseShouldFail(r.shouldFail))
  {
    var e := CheckNameAndTopic(r);
    if e.Some? then Err(e.value)
    else match ParseOptionalDuration(r.interval, parse)
      case Err(err) => Err(err)
      case Ok(d) =>
        Ok(ConsumerUpdate(r.name, r.topic, r.interval, r.shouldFail, d, ParseShouldFail(r.shouldFail)))
  }
}
